=== FILE: README.md ===
# Clinic booking engine — a Dafny model

This project models the appointment engine of a gastroenterology clinic's web
application. The clinic offers four services:

- two consultations, gastroenterology and nutrition (category *consulta*);
- two procedures, endoscopy and colonoscopy (category *procedimiento*).

The model centres on the slot-availability and booking-rule engine of
`src/lib/appointments.ts`:

- the per-category schedule table;
- parsing and formatting of `"HH:MM"` times;
- generating fixed-step slots over a day's window;
- the half-open blocked-range test;
- the availability filter. It removes slots inside the two-hour lead time,
  slots covered by an administrator's block, and slots whose exact `"HH:MM"`
  a pending or confirmed appointment already holds;
- the three-rule date validation;
- the scan that lists the coming non-Sunday dates.

Around the engine sit the route handlers and page helpers that feed it or use
its results. Each is modelled as a pure function over records:

- the free-slots endpoint;
- the booking `POST` and the appointment list `GET`;
- the blocked-slot `POST` and `GET`;
- the patient's upcoming/past split and cancel request;
- the administrator's appointment filter and confirm/reject actions;
- the booking wizard's date list, step gate and state changes;
- the administrator's month grid;
- the patient list's age and search;
- the sidebar's active-entry rule.

How the outside world appears in the model:

- Database reads become `seq` parameters. The `where` clauses of those reads
  are modelled: the day window, the statuses, the service scope and the patient
  scope. `orderBy: { date: "asc" }` becomes a stable insertion sort.
- "Create" returns the new record, with its id passed in (`FreshIds`).
- The clock `new Date()` becomes an explicit `now`.
- Instants are integer milliseconds on the clinic's local time line. Day
  numbers count from 1970-01-01. Weekday 0 is Sunday, as in `getDay()`.

The modules follow the program's files:

| module | file |
|---|---|
| `Clock`, `Text`, `TimeText`, `Seqs`, `Wrappers` | time arithmetic, digits and case, `"HH:MM"` text, sequence filter/sort |
| `Domain` | the records of `src/types/index.ts` and the Prisma schema |
| `Schedule` | `SCHEDULE_CONFIG`, `BOOKING_RULES`, `getServiceCategory`, `generateTimeSlots` |
| `Availability` | `getAvailableSlots`, `isTimeInRange`, `formatDateToTime` |
| `BookingPolicy` | `isValidAppointmentDate`, `getNextAvailableDates` |
| `AvailableSlotsApi` | `src/app/api/appointments/available-slots/route.ts` |
| `AppointmentsApi` | `src/app/api/appointments/route.ts` |
| `BlockedSlotsApi` | `src/app/api/blocked-slots/route.ts` |
| `MyAppointments` | `src/app/mi-cuenta/citas/page.tsx` |
| `AdminAppointments` | `src/app/admin/citas/page.tsx` |
| `BookingWizard` | `src/app/agendar/page.tsx` |
| `AdminCalendar` | `src/app/admin/calendario/page.tsx` |
| `AdminPatients` | `src/app/admin/pacientes/page.tsx` |
| `AdminSidebar` | `src/components/layout/AdminSidebar.tsx` |

Where the behaviour one would expect and the code differ, the model follows
the code:

- **Date validation compares instants, not calendar days.** A request for
  today's midnight is "in the past" once the day has begun. The seven-day
  horizon ends at exactly `now` plus seven days.
- **The booking `POST` has no admission check.** There is no atomic
  check-then-insert and no rejection for a disabled booking mode. An occupied,
  blocked, past or Sunday slot is booked just the same.
- **The `DISABLED` mode is not enforced.** It yields `PENDING`, like
  `MANUAL_CONFIRM` and a missing setting.
- **Occupancy is an exact `"HH:MM"` match.** It is not an interval overlap.
  An appointment of any service takes the time.

## Model

| member | source | states |
|---|---|---|
| Schedule.GetServiceCategory | src/lib/appointments.ts:93-103 | both consultation types map to *consulta*, endoscopy and colonoscopy to *procedimiento*, in both directions |
| Schedule.WindowFor | src/lib/appointments.ts:114-120 | Saturday uses the category's Saturday window, Monday to Friday its weekday window |
| Schedule.SlotMinutes | src/lib/appointments.ts:49-63 | slots start at `start`, step by exactly the duration, each ends by `end`, and no further slot would fit |
| Schedule.SlotMinutesClosedForm | src/lib/appointments.ts:49-63 | slot `i` starts at `start + i * duration` |
| Schedule.SlotCount | src/lib/appointments.ts:49-63 | the number of slots is ⌊(end − start) / duration⌋, or 0 when the window is shorter than one slot |
| Schedule.GenerateTimeSlots | src/lib/appointments.ts:49-63 | no slot for an unparsable bound; otherwise no slot exactly when one duration does not fit, and the first slot is the window start |
| Schedule.GeneratedSlotCount | src/lib/appointments.ts:49-63 | the same count for the `"HH:MM"` window strings |
| Schedule.GeneratedSlotsMalformed | src/lib/appointments.ts:49-63 | a window bound that does not parse (NaN) gives no slots |
| Schedule.GeneratedSlotAt | src/lib/appointments.ts:49-63 | each generated string is the formatted slot minute and parses back to it |
| Schedule.GeneratedSlotsSteps | src/lib/appointments.ts:49-63 | read back as minutes, the slots start at the window start, step by the duration and end by the window end |
| Schedule.SlotMinutesAscending | src/lib/appointments.ts:49-63 | slot minutes strictly increase |
| Schedule.GeneratedSlotsDistinct | src/lib/appointments.ts:49-63 | no slot string appears twice |
| Schedule.ConsultaWeekdaySlots | src/lib/appointments.ts:5-30 | either consultation, on any day Monday to Friday, gives exactly 08:00, 08:30, …, 12:00 (nine slots) |
| Schedule.ProcedimientoWeekdaySlots | src/lib/appointments.ts:5-30 | either procedure, on any day Monday to Friday, gives exactly 10:00 and 11:00 |
| TimeText.ParseTime | src/lib/appointments.ts:38-41 | a value exactly when both colon fields read as numbers; its hours and minutes are those fields when the minutes are below 60 |
| TimeText.FormatTime | src/lib/appointments.ts:43-47 | at least five characters with the colon third from the end, exactly five below 100 hours |
| TimeText.FormatDateToTime | src/lib/appointments.ts:89-91 | five characters that parse back to the instant's minute of the day |
| TimeText.ParseFormatRoundTrip | src/lib/appointments.ts:38-47 | `parseTime(formatTime(m)) == m` for every minute count |
| TimeText.ParseClockFormatTime | src/lib/appointments.ts:38-47 | splitting a formatted time gives back its hours and minutes |
| TimeText.FormatTimeInjective | src/lib/appointments.ts:43-47 | two minute counts format to the same string exactly when they are equal |
| TimeText.FormatTimeShape | src/lib/appointments.ts:43-47 | below 100 hours the text is two digits, a colon and two digits |
| Clock.StartOfDay | src/lib/appointments.ts:65-69 | the midnight of the same day: a whole number of days, at or before the instant and less than a day before it |
| Clock.EndOfDay | src/lib/appointments.ts:71-75 | the last millisecond of the same day: one millisecond later is the next day |
| Clock.InclusiveDayWindow | src/app/api/blocked-slots/route.ts:13-23 | an instant lies in `[00:00:00.000, 23:59:59.999]` of a day exactly when it falls on that day |
| Clock.SetHoursAsMinutes | src/app/api/appointments/route.ts:138-140 | `setHours(h, m, 0, 0)` lands `h * 60 + m` minutes after that day's midnight |
| Clock.SetHoursMinutes | src/lib/appointments.ts:152-156 | setting a slot's hour and minute gives the day's midnight plus the slot's minute count |
| Availability.DayAppointments | src/lib/appointments.ts:125-134 | exactly the pending or confirmed appointments from the day's midnight up to, not including, its last millisecond |
| Availability.DayBlocks | src/lib/appointments.ts:136-145 | exactly the same day's blocks whose service is unset or the requested one |
| Availability.IsTimeInRange | src/lib/appointments.ts:77-87 | false when a bound is missing or empty; otherwise true exactly when all three strings parse and `start <= t < end` |
| Availability.TimeInRangeAtMinute | src/lib/appointments.ts:77-87 | on a formatted minute the test is exactly the half-open interval test |
| Availability.BlockEndStaysBookable | src/lib/appointments.ts:77-87 | a block's end time itself is never inside the block |
| Availability.GetAvailableSlots | src/lib/appointments.ts:105-176 | Sunday gives no slots; otherwise a slot is offered exactly when it is generated for that day and passes the lead-time, block and occupancy tests |
| Availability.AvailableIsFilter | src/lib/appointments.ts:150-175 | the result is the generated slots filtered by the open test |
| Availability.AvailableSubsequence | src/lib/appointments.ts:150-175 | the result keeps the generated order and invents no slot |
| Availability.AvailableDistinct | src/lib/appointments.ts:150-175 | no slot is offered twice |
| Availability.TooSoonAtMinute | src/lib/appointments.ts:147-157 | a slot is too soon exactly when its instant is before `now` plus two hours |
| Availability.BlockedAtMinute | src/lib/appointments.ts:159-165 | a slot is blocked exactly when an applicable block of the day is full-day or covers its minute |
| Availability.AppointmentAtMinute | src/lib/appointments.ts:166-170 | a slot is taken exactly when a held appointment of the day starts at its minute |
| Availability.SlotOpenAtMinute | src/lib/appointments.ts:150-173 | the three tests together, restated on minute counts |
| Availability.AvailableAtMinute | src/lib/appointments.ts:105-176 | on a non-Sunday, minute `m` is offered exactly when it is generated, late enough, unblocked and untaken |
| Availability.ReleasedAppointmentIrrelevant | src/lib/appointments.ts:125-134 | adding a cancelled, completed or no-show appointment changes no day's slots |
| Availability.HeldAppointmentTakesSlot | src/lib/appointments.ts:166-170 | a held appointment of the day removes its own `"HH:MM"`, whatever its service |
| Availability.OtherMinuteAppointmentIrrelevant | src/lib/appointments.ts:166-170 | an appointment at another minute leaves a slot's availability unchanged, even if the two overlap in duration |
| Availability.OtherServiceBlockIrrelevant | src/lib/appointments.ts:136-145 | a block scoped to another service changes nothing |
| Availability.FullDayBlockClosesDay | src/lib/appointments.ts:159-165 | an applicable full-day block of the day leaves no slot |
| BookingPolicy.MaxDate | src/lib/appointments.ts:183-184 | the horizon is seven calendar days after `now`, at the same time of day to the millisecond |
| BookingPolicy.IsValidAppointmentDate | src/lib/appointments.ts:178-205 | valid exactly when `now <= date <= horizon` and not a Sunday; each failure returns its own rule's message, checked in the order past, horizon, Sunday |
| BookingPolicy.HorizonReasonText | src/lib/appointments.ts:191-197 | the horizon message reads "… máximo 7 días de anticipación" |
| BookingPolicy.TodayMidnightIsPast | src/lib/appointments.ts:187-189 | once a day has begun, its midnight is rejected as past |
| BookingPolicy.HorizonBoundary | src/lib/appointments.ts:191-197 | the horizon instant passes the horizon rule; one millisecond later fails it |
| BookingPolicy.ValidDateBounds | src/lib/appointments.ts:178-205 | an accepted date is not a Sunday, not before `now`, and at most seven days ahead |
| BookingPolicy.OpenDaysFrom | src/lib/appointments.ts:212-220 | the scanned days that are not Sundays: at most one per scanned day, each inside the scan |
| BookingPolicy.OpenDaysAscending | src/lib/appointments.ts:212-220 | the scanned days are strictly ascending |
| BookingPolicy.OpenDaysComplete | src/lib/appointments.ts:212-220 | every non-Sunday of the scanned days is listed |
| BookingPolicy.OpenDaysPrefix | src/lib/appointments.ts:212-220 | a shorter scan lists a prefix of a longer one |
| BookingPolicy.ScanIsConsecutive | src/lib/appointments.ts:207-223 | listed dates are midnights, not Sundays, ascending, from today, with no skipped working day |
| BookingPolicy.GetNextAvailableDates | src/lib/appointments.ts:207-223 | returns `min(days, non-Sundays among the next days + 7 days)` consecutive working-day midnights starting today; none for `days <= 0` |
| BookingPolicy.WeekHasSixOpenDays | src/lib/appointments.ts:212-220 | any seven consecutive days hold exactly six non-Sundays |
| BookingPolicy.ScanBoundTooShort | src/lib/appointments.ts:212 | for `days = 7k` with `k >= 7`, the `days + 7` scan holds only `6k + 6 < days` non-Sundays |
| BookingPolicy.FortyNineDaysGiveFortyEight | src/lib/appointments.ts:212 | asking for 49 dates, the scan finds only 48 |
| BookingPolicy.NextAvailableDates | src/app/agendar/page.tsx:109-123 | exactly `days` consecutive working-day midnights from today's, with no bound on the scan |
| AvailableSlotsApi.GetSlots | src/app/api/appointments/available-slots/route.ts:5-44 | missing date or service gives 400; an invalid date gives empty data and the rule's message; a valid date gives exactly the engine's slots |
| AvailableSlotsApi.InvalidDateAnswersReason | src/app/api/appointments/available-slots/route.ts:21-28 | a rejected date answers `[]` with the validation message and never reaches slot resolution |
| AvailableSlotsApi.OfferedSlotsAreBookable | src/app/api/appointments/available-slots/route.ts:20-36 | every offered slot is on an accepted date, is generated for that day, and is at least two hours ahead |
| AvailableSlotsApi.SundayQueryAnswersEmpty | src/app/api/appointments/available-slots/route.ts:20-31 | a Sunday answers empty data with a message |
| AppointmentsApi.FindService | src/app/api/appointments/route.ts:82-91 | finds a stored service of that type; none exactly when no stored service has it |
| AppointmentsApi.FindPatient | src/app/api/appointments/route.ts:97-103 | finds the patient with that id; none exactly when there is no such row |
| AppointmentsApi.OrNull | src/app/api/appointments/route.ts:112-115 | an empty optional text is stored as null, any other text as given |
| AppointmentsApi.ResolvePatient | src/app/api/appointments/route.ts:94-135 | a stored session patient is reused and nothing is created; otherwise a new patient with the fresh id, the form's names, birth date and phone, and its address and chronic diseases as typed, a blank one stored as null; linked to a new caregiver, carrying the form's caregiver names, phone and relationship and the session's user, exactly when the form says caregiver, carries caregiver data and there is a session |
| AppointmentsApi.EffectiveMode | src/app/api/appointments/route.ts:143-147 | a stored non-empty setting is used as it is; a missing or empty one reads as "MANUAL_CONFIRM" |
| AppointmentsApi.InitialStatus | src/app/api/appointments/route.ts:149-154 | confirmed exactly when the mode is `AUTO_ACCEPT`, pending otherwise |
| AppointmentsApi.AppointmentInstant | src/app/api/appointments/route.ts:138-140 | defined exactly when the time parses, and then the date's midnight plus the time's minutes |
| AppointmentsApi.BookAppointment | src/app/api/appointments/route.ts:69-179 | missing data gives 400, an unknown service 404, a malformed time a failure; otherwise the appointment has the fresh id, the patient, the service, the reason, the assembled instant, the mode's status and a confirmation time exactly when confirmed |
| AppointmentsApi.NonAutoModesArePending | src/app/api/appointments/route.ts:143-154 | `DISABLED`, `MANUAL_CONFIRM`, empty and missing modes all book as pending with no confirmation time |
| AppointmentsApi.NoAdmissionCheck | src/app/api/appointments/route.ts:137-166 | the outcome does not depend on the stored appointments or blocks |
| AppointmentsApi.DoubleBookingAdmitted | src/app/api/appointments/route.ts:137-166 | a request for an instant a held appointment already occupies is still booked |
| AppointmentsApi.SessionPatientReused | src/app/api/appointments/route.ts:97-103 | the session's patient row, when found, is reused; no patient or caregiver is created |
| AppointmentsApi.CaregiverCreatedOnlyWhen | src/app/api/appointments/route.ts:119-130 | a caregiver is created exactly when a new patient is created and the caller is a caregiver with data and a session; it belongs to the session user and the patient points to it |
| AppointmentsApi.PatientCreatedWhenNoneFound | src/app/api/appointments/route.ts:94-135 | a patient is created exactly when there is no session patient row |
| AppointmentsApi.MalformedTimeLeavesPatient | src/app/api/appointments/route.ts:104-140 | a malformed time fails after the new patient row is already written |
| AppointmentsApi.PatientScope | src/app/api/appointments/route.ts:35-39 | a patient session with a patient id scopes to it; anyone else uses the `patientId` parameter |
| AppointmentsApi.ListAppointments | src/app/api/appointments/route.ts:5-67 | the matching appointments as a permutation, ascending by date |
| AppointmentsApi.ListedIff | src/app/api/appointments/route.ts:18-39 | an appointment is listed exactly when it is stored and matches status, day and patient scope |
| AppointmentsApi.PatientSeesOnlyOwn | src/app/api/appointments/route.ts:35-39 | a patient session lists only its own appointments, whatever `patientId` says |
| AppointmentsApi.PatientWithoutRowUsesParameter | src/app/api/appointments/route.ts:35-39 | a patient session without a patient id falls back to the parameter |
| BlockedSlotsApi.CreateBlock | src/app/api/blocked-slots/route.ts:45-89 | non-admin gives 401, a missing date 400; a full-day block is stored without times, any other with its times as sent; `isFullDay` is true only when sent true |
| BlockedSlotsApi.InvertedRangeStoredAndInert | src/app/api/blocked-slots/route.ts:66-75 | an end before its start is stored unchecked and then covers no slot |
| BlockedSlotsApi.FullDayBlockEmptiesDay | src/app/api/blocked-slots/route.ts:66-75 | a stored full-day block for all services leaves its day with no slot for any service |
| BlockedSlotsApi.ListBlocks | src/app/api/blocked-slots/route.ts:4-43 | the blocks of the day (all without a date) as a permutation, ascending by date |
| BlockedSlotsApi.ListedBlocksIff | src/app/api/blocked-slots/route.ts:13-23 | a block is listed exactly when its date is within the inclusive day window |
| BlockedSlotsApi.ListedBlocksSameDay | src/app/api/blocked-slots/route.ts:13-23 | a block is listed exactly when its date falls on the requested day |
| MyAppointments.UpcomingAppointments | src/app/mi-cuenta/citas/page.tsx:85-89 | exactly the pending or confirmed appointments at or after `now` |
| MyAppointments.PastAppointments | src/app/mi-cuenta/citas/page.tsx:91-97 | exactly those before `now`, or completed, cancelled or no-show |
| MyAppointments.UpcomingXorPast | src/app/mi-cuenta/citas/page.tsx:85-97 | every appointment is in exactly one of the two lists |
| MyAppointments.UpcomingPastPartition | src/app/mi-cuenta/citas/page.tsx:85-97 | together the two lists are a permutation of all appointments |
| MyAppointments.ListsKeepOrder | src/app/mi-cuenta/citas/page.tsx:85-97 | both lists keep the original order |
| MyAppointments.UpcomingOffersCancel | src/app/mi-cuenta/citas/page.tsx:163-164 | every upcoming appointment shows the cancel button |
| MyAppointments.CancelRequest | src/app/mi-cuenta/citas/page.tsx:43-55 | a selection sends `CANCELLED` for that appointment only; no selection sends nothing |
| AdminAppointments.FilteredAppointments | src/app/admin/citas/page.tsx:90-110 | an appointment is kept exactly when it matches the status filter and the search |
| AdminAppointments.FilteredIsSubsequence | src/app/admin/citas/page.tsx:90-110 | the result keeps the original order |
| AdminAppointments.NoFilterKeepsAll | src/app/admin/citas/page.tsx:90-110 | "all" with an empty search keeps everything |
| AdminAppointments.StatusFilterExact | src/app/admin/citas/page.tsx:92 | a status filter keeps exactly the appointments with that status |
| AdminAppointments.SearchIgnoresCase | src/app/admin/citas/page.tsx:95-107 | lower-casing the search changes no match |
| AdminAppointments.ActionStatus | src/app/admin/citas/page.tsx:67-68 | confirm maps to `CONFIRMED`, cancel to `CANCELLED`, and only those |
| AdminAppointments.OfferedActions | src/app/admin/citas/page.tsx:215-233 | confirm and reject are offered exactly for pending appointments |
| AdminAppointments.ActionRequest | src/app/admin/citas/page.tsx:62-76 | a selection sends the action's status for that appointment only |
| AdminAppointments.ActionsOnlyFromPending | src/app/admin/citas/page.tsx:215 | an offered action comes from a pending appointment and sends confirmed or cancelled |
| BookingWizard.Initial | src/app/agendar/page.tsx:58-85 | step 1, the service from the query string, no date and no time |
| BookingWizard.CanProceed | src/app/agendar/page.tsx:202-219 | step 1 needs the service, step 2 date and time, step 3 the five personal fields; any other step is closed |
| BookingWizard.Apply | src/app/agendar/page.tsx:152-200 | the page's events keep the step between 1 and 4; picking a date or receiving slots leaves no time chosen |
| BookingWizard.StepStaysInRange | src/app/agendar/page.tsx:675-700 | the step stays between 1 and 4 |
| BookingWizard.SubmitOnlyFromCompleteStepThree | src/app/agendar/page.tsx:152-154 | a request goes in flight only from "Confirmar Cita" on a complete step 3 with none in flight (the button is disabled while loading); it carries that form and clears the error |
| BookingWizard.SentStaysComplete | src/app/agendar/page.tsx:694-697 | every request in flight carries complete personal details, whatever happens after it is sent |
| BookingWizard.ConfirmationOnlyAfterSuccess | src/app/agendar/page.tsx:186-197 | step 4 is entered only by a successful response to a request in flight |
| BookingWizard.ConfirmationAfterGoingBack | src/app/agendar/page.tsx:677-681 | "Anterior" stays enabled during the request, so a success arriving after going back moves step 2 straight to step 4 |
| BookingWizard.ConfirmationIsFinal | src/app/agendar/page.tsx:675-700 | once at step 4, nothing leaves it |
| BookingWizard.ForwardOnlyWhenGateOpen | src/app/agendar/page.tsx:685-688 | the step advances by one through "Siguiente" when the gate is open, or to 4 by a successful response; nothing else moves it forwards |
| BookingWizard.TimeResets | src/app/agendar/page.tsx:88-106 | choosing a date and receiving a slot list both clear the time |
| BookingWizard.TimeStaysOffered | src/app/agendar/page.tsx:396-400 | a chosen time is always one of the offered slots, except after a failed fetch |
| BookingWizard.FailedFetchKeepsTime | src/app/agendar/page.tsx:98-100 | a failed fetch empties the slots and keeps the chosen time |
| BookingWizard.GetAvailableDates | src/app/agendar/page.tsx:109-123 | seven ascending working-day midnights, consecutive from today's |
| AdminCalendar.FirstWeekday | src/app/admin/calendario/page.tsx:36-42 | the weekday of the month's first day, 0 to 6 |
| AdminCalendar.GetDaysInMonth | src/app/admin/calendario/page.tsx:36-57 | blank cells up to the first weekday, then the days 1 … n of the month in order |
| AdminCalendar.GridColumnIsWeekday | src/app/admin/calendario/page.tsx:36-57 | day `d` sits in the column of its own weekday |
| AdminCalendar.AppointmentsForDate | src/app/admin/calendario/page.tsx:59-68 | exactly the appointments with that year, month and day |
| AdminCalendar.AppointmentsForDateKeepOrder | src/app/admin/calendario/page.tsx:59-68 | in the original order |
| AdminCalendar.PreviousMonth | src/app/admin/calendario/page.tsx:77-82 | day 1 of the month before, selection cleared |
| AdminCalendar.NextMonth | src/app/admin/calendario/page.tsx:84-89 | day 1 of the month after, selection cleared |
| AdminCalendar.MonthNavigationRoundTrip | src/app/admin/calendario/page.tsx:77-89 | back then forward (or forward then back) returns to day 1 of the same month |
| AdminCalendar.DayCellPreview | src/app/admin/calendario/page.tsx:181-198 | at most the first two appointments shown; the rest counted, and only when two are shown |
| AdminCalendar.MoreLabel | src/app/admin/calendario/page.tsx:194-198 | a label exactly when something is hidden: "+", then digits that read as the hidden count, then " más" |
| AdminCalendar.MoreLabelExample | src/app/admin/calendario/page.tsx:194-198 | five appointments give "+3 más" |
| AdminPatients.Age | src/app/admin/pacientes/page.tsx:52-64 | the number of completed years: that birthday has been reached and the next has not |
| AdminPatients.AgeIsCompletedYears | src/app/admin/pacientes/page.tsx:52-64 | the age's birthday has been reached and the next one has not |
| AdminPatients.CompletedYearsUnique | src/app/admin/pacientes/page.tsx:52-64 | any count of years with that property is the age |
| AdminPatients.AgeOnBirthday | src/app/admin/pacientes/page.tsx:52-64 | on the `k`-th birthday the age is `k` |
| AdminPatients.AgeDayBeforeBirthday | src/app/admin/pacientes/page.tsx:52-64 | on the day before, across month and year ends, it is `k − 1` |
| AdminPatients.AgeNonNegative | src/app/admin/pacientes/page.tsx:52-64 | someone born on or before today has a non-negative age |
| AdminPatients.FilteredPatients | src/app/admin/pacientes/page.tsx:43-50 | a patient is kept exactly when the search is empty, the lower-cased full name contains the lower-cased search, or the phone contains the raw search |
| AdminPatients.EmptySearchKeepsAllPatients | src/app/admin/pacientes/page.tsx:43-50 | an empty search keeps everyone in order |
| AdminPatients.PhoneSearchFinds | src/app/admin/pacientes/page.tsx:43-50 | a search occurring in a patient's phone finds that patient |
| AdminPatients.FilteredPatientsKeepOrder | src/app/admin/pacientes/page.tsx:43-50 | the list keeps the original order |
| AdminSidebar.IsActive | src/components/layout/AdminSidebar.tsx:61-66 | the dashboard only on exactly "/admin"; any other entry exactly when its `href` is the start of the path |
| AdminSidebar.ActiveItems | src/components/layout/AdminSidebar.tsx:61-66 | an entry is highlighted exactly when it is the dashboard on exactly "/admin", or another entry whose `href` starts the path |
| AdminSidebar.HrefsPrefixFree | src/components/layout/AdminSidebar.tsx:18-49 | no non-dashboard `href` is a prefix of another |
| AdminSidebar.NavItemsDistinct | src/components/layout/AdminSidebar.tsx:18-49 | the six entries are distinct |
| AdminSidebar.NoTwoActive | src/components/layout/AdminSidebar.tsx:61-66 | two different entries are never both highlighted |
| AdminSidebar.AtMostOneActive | src/components/layout/AdminSidebar.tsx:61-66 | any path highlights at most one entry |
| AdminSidebar.NestedPathHighlightsSection | src/components/layout/AdminSidebar.tsx:61-66 | "/admin/citas/12" highlights Citas only, not the dashboard |

## Left out

- Database access, HTTP plumbing and `fetch` are left out. Reads are sequence parameters, writes return the new record, and responses are result datatypes.
- The wall clock, time zones and daylight saving are left out. `now` is a parameter, and a day is exactly 86 400 000 ms.
- The UTC parsing of `"YYYY-MM-DD"` query strings against local-time `setHours` is left out. Dates arrive as instants.
- Unparseable date strings and service strings outside the four-value enum are left out. They end in the routes' 500 paths, decided by the database layer.
- Concurrency is left out. The code has no atomic check-then-insert, so none is modelled.
- `minTimeBetweenSamePatient` is declared but never applied, so it is a constant only.
- The administrator-editable `maxAdvanceDays` setting is left out, because the engine never reads it and uses the constant 7.
- Authentication is left out: JWT, bcrypt, cookies and the login/register/me routes. A session is a record parameter.
- The configuration, patient and service CRUD routes and the database seed are left out.
- Rendering, styling, locale date formatting, modals and loading spinners are left out.
- Weight and height are parsed as floats in the booking `POST`. They are not stored in the model.
- TimeText.ParseClock: reads only digit strings. The other texts JavaScript's `Number` accepts are taken as NaN (`"+8"`, `" 8"`, `"8.0"`, `"1e1"`).
- Text.Lower: folds only ASCII `A`–`Z`, whereas `toLowerCase` folds all of Unicode. Accented capitals such as `Á` are left as they are.
- AppointmentsApi.PatientScope: a non-numeric `patientId` parameter (`parseInt` gives NaN) is not modelled; the parameter arrives as a number.
- A session `patientId` of 0 (falsy in JavaScript) is not modelled, because ids start at 1.
- A status query value outside the five statuses is not modelled.
- MyAppointments.UpcomingPastPartition: holds for a single clock reading. The page calls `new Date()` once per element in each filter (src/app/mi-cuenta/citas/page.tsx:87 and 93), so a held appointment whose instant falls between two readings can appear in both lists.
- MyAppointments.UpcomingXorPast: holds for a single clock reading, for the same reason.
- BookingWizard.Apply: the caregiver fields and the optional address, weight, height and chronic-disease fields of the form are not modelled. No gate reads them.
- AdminCalendar.GetDaysInMonth: requires a month between 1 and 12. The page always holds a real `Date`, whose month is in range.

## Findings

| source | as written | input that shows it | evidently intended | confidence | as-written member | corrected member |
|---|---|---|---|---|---|---|
| src/lib/appointments.ts:212 | the loop stops after `days + 7` scanned days even when fewer than `days` dates were found | `days = 49`: 56 scanned days hold only 48 non-Sundays, so 48 dates come back (`BookingPolicy.FortyNineDaysGiveFortyEight`; every `days = 7k` with `k >= 7` falls short, `BookingPolicy.ScanBoundTooShort`) | exactly `days` consecutive non-Sunday dates, as the wizard's own loop at src/app/agendar/page.tsx:114 does | medium: the default of 7 is unaffected and no caller passes more; not executed | BookingPolicy.GetNextAvailableDates | BookingPolicy.NextAvailableDates |

=== FILE: admin_appointments.dfy ===
/** The administrator's appointment list (src/app/admin/citas/page.tsx): the status and
    search filter, and the confirm/reject actions. */
module AdminAppointments {
  import opened Wrappers
  import opened Domain
  import opened Text
  import opened Seqs

  /** The status drop-down: "all", or one status. */
  datatype StatusFilter = AllStatuses | OnlyStatus(status: AppointmentStatus)

  predicate StatusMatches(l: ListedAppointment, f: StatusFilter) {
    f.AllStatuses? || l.appointment.status == f.status
  }

  /** The lower-cased "first last" name of the appointment's patient. */
  function PatientName(l: ListedAppointment): string {
    Lower(l.patient.firstName + " " + l.patient.lastName)
  }

  /** An empty search matches everything; otherwise the lower-cased search must occur in
      the lower-cased patient name or the lower-cased service name. */
  predicate SearchMatches(l: ListedAppointment, search: string) {
    search == "" || Contains(PatientName(l), Lower(search)) || Contains(Lower(l.service.name), Lower(search))
  }

  predicate Keep(l: ListedAppointment, f: StatusFilter, search: string) {
    StatusMatches(l, f) && SearchMatches(l, search)
  }

  /** `filteredAppointments`. */
  function FilteredAppointments(all: seq<ListedAppointment>, f: StatusFilter, search: string): (r: seq<ListedAppointment>)
    ensures |r| <= |all|
    ensures forall l :: l in r <==> l in all && StatusMatches(l, f) && SearchMatches(l, search)
  {
    Filter(all, l => Keep(l, f, search))
  }

  /** The result keeps the fetched order and only drops entries. */
  lemma FilteredIsSubsequence(all: seq<ListedAppointment>, f: StatusFilter, search: string)
    ensures IsSubsequence(FilteredAppointments(all, f, search), all)
  {
    FilterIsSubsequence(all, l => Keep(l, f, search));
  }

  /** Filter "all" with an empty search shows the list unchanged. */
  lemma NoFilterKeepsAll(all: seq<ListedAppointment>)
    ensures FilteredAppointments(all, AllStatuses, "") == all
  {
    FilterKeepsAll(all, l => Keep(l, AllStatuses, ""));
  }

  /** A status filter keeps exactly the appointments with that status (before the search). */
  lemma StatusFilterExact(all: seq<ListedAppointment>, s: AppointmentStatus, l: ListedAppointment)
    ensures l in FilteredAppointments(all, OnlyStatus(s), "") <==> l in all && l.appointment.status == s
  {
  }

  /** The search ignores ASCII letter case on both sides. */
  lemma SearchIgnoresCase(l: ListedAppointment, search: string)
    ensures SearchMatches(l, Lower(search)) <==> SearchMatches(l, search)
  {
    LowerIdempotent(search);
    if search != "" {
      assert Lower(search) != "";
    }
  }

  datatype AdminAction = ConfirmAction | CancelAction

  /** The status the confirmation dialog sends for an action. */
  function ActionStatus(action: AdminAction): (s: AppointmentStatus)
    ensures s == Confirmed <==> action == ConfirmAction
    ensures s == Cancelled <==> action == CancelAction
  {
    match action
    case ConfirmAction => Confirmed
    case CancelAction => Cancelled
  }

  /** Confirm and Reject are offered only on pending appointments. */
  function OfferedActions(l: ListedAppointment): (r: seq<AdminAction>)
    ensures r != [] <==> l.appointment.status == Pending
    ensures r != [] ==> r == [ConfirmAction, CancelAction]
  {
    if l.appointment.status == Pending then [ConfirmAction, CancelAction] else []
  }

  /** The request the dialog sends: the selected appointment with the action's status. */
  function ActionRequest(selected: Option<ListedAppointment>, action: AdminAction): (r: Option<StatusUpdate>)
    ensures r.Some? <==> selected.Some?
    ensures r.Some? ==> r.value.appointmentId == selected.value.appointment.id && r.value.status == ActionStatus(action)
  {
    if selected.None? then None else Some(StatusUpdate(selected.value.appointment.id, ActionStatus(action)))
  }

  /** Only a pending appointment can be moved by these actions, and only to CONFIRMED or CANCELLED. */
  lemma ActionsOnlyFromPending(l: ListedAppointment, action: AdminAction)
    requires action in OfferedActions(l)
    ensures l.appointment.status == Pending
    ensures ActionRequest(Some(l), action).value.status in {Confirmed, Cancelled}
  {
  }
}

=== FILE: admin_calendar.dfy ===
/** The administrator's month calendar (src/app/admin/calendario/page.tsx): the month
    grid, the appointments of a day, the month navigation and the day-cell preview. */
module AdminCalendar {
  import opened Wrappers
  import opened Clock
  import opened Domain
  import opened Text
  import opened Seqs

  /** `firstDay.getDay()`: the weekday of the 1st of the month. */
  function FirstWeekday(year: int, month: int): (w: int)
    ensures 0 <= w < 7
  {
    Weekday(DaysFromCivil(CivilDate(year, month, 1)))
  }

  /** `getDaysInMonth`: one empty cell per weekday before the 1st, then the dates of the
      month in order, laid out in seven columns Sunday to Saturday. */
  method GetDaysInMonth(current: CivilDate) returns (cells: seq<Option<CivilDate>>)
    requires 1 <= current.month <= 12
    ensures |cells| == FirstWeekday(current.year, current.month) + DaysInMonth(current.year, current.month)
    ensures forall i :: 0 <= i < FirstWeekday(current.year, current.month) ==> cells[i].None?
    ensures forall d :: 1 <= d <= DaysInMonth(current.year, current.month) ==>
      cells[FirstWeekday(current.year, current.month) + d - 1] == Some(CivilDate(current.year, current.month, d))
  {
    var year, month := current.year, current.month;
    var daysInMonth := DaysInMonth(year, month);
    var startingDay := FirstWeekday(year, month);
    cells := [];
    var i := 0;
    while i < startingDay
      invariant 0 <= i <= startingDay
      invariant |cells| == i
      invariant forall k :: 0 <= k < i ==> cells[k].None?
    {
      cells := cells + [None];
      i := i + 1;
    }
    i := 1;
    while i <= daysInMonth
      invariant 1 <= i <= daysInMonth + 1
      invariant |cells| == startingDay + i - 1
      invariant forall k :: 0 <= k < startingDay ==> cells[k].None?
      invariant forall d :: 1 <= d < i ==> cells[startingDay + d - 1] == Some(CivilDate(year, month, d))
    {
      cells := cells + [Some(CivilDate(year, month, i))];
      i := i + 1;
    }
  }

  /** The column of day `d` in the seven-column grid is that day's weekday, so every date
      sits under its own weekday heading. */
  lemma GridColumnIsWeekday(year: int, month: int, d: int)
    requires 1 <= month <= 12 && 1 <= d <= DaysInMonth(year, month)
    ensures (FirstWeekday(year, month) + d - 1) % 7 == Weekday(DaysFromCivil(CivilDate(year, month, d)))
  {
    DaysFromCivilWithinMonth(year, month, d);
    WeekdayShift(DaysFromCivil(CivilDate(year, month, 1)), d - 1);
  }

  /** `getAppointmentsForDate`: the appointments on the same calendar date, in list order. */
  function AppointmentsForDate(all: seq<ListedAppointment>, date: CivilDate): (r: seq<ListedAppointment>)
    ensures forall l :: l in r <==> l in all && CivilOf(l.appointment.date) == date
  {
    Filter(all, (l: ListedAppointment) => CivilOf(l.appointment.date) == date)
  }

  lemma AppointmentsForDateKeepOrder(all: seq<ListedAppointment>, date: CivilDate)
    ensures IsSubsequence(AppointmentsForDate(all, date), all)
  {
    FilterIsSubsequence(all, (l: ListedAppointment) => CivilOf(l.appointment.date) == date);
  }

  /** The month shown and the selected day, if any. */
  datatype CalendarState = CalendarState(current: CivilDate, selected: Option<CivilDate>)

  /** Months counted from year 0, to compare positions across year boundaries. */
  function MonthIndex(d: CivilDate): int {
    d.year * 12 + d.month - 1
  }

  /** `previousMonth`: the 1st of the month before, selection cleared. */
  function PreviousMonth(s: CalendarState): (r: CalendarState)
    requires 1 <= s.current.month <= 12
    ensures MonthIndex(r.current) == MonthIndex(s.current) - 1
    ensures r.current.day == 1 && ValidDate(r.current) && r.selected.None?
  {
    var c := s.current;
    CalendarState(if c.month == 1 then CivilDate(c.year - 1, 12, 1) else CivilDate(c.year, c.month - 1, 1), None)
  }

  /** `nextMonth`: the 1st of the month after, selection cleared. */
  function NextMonth(s: CalendarState): (r: CalendarState)
    requires 1 <= s.current.month <= 12
    ensures MonthIndex(r.current) == MonthIndex(s.current) + 1
    ensures r.current.day == 1 && ValidDate(r.current) && r.selected.None?
  {
    var c := s.current;
    CalendarState(if c.month == 12 then CivilDate(c.year + 1, 1, 1) else CivilDate(c.year, c.month + 1, 1), None)
  }

  /** Going back and forth returns to the 1st of the month shown. */
  lemma MonthNavigationRoundTrip(s: CalendarState)
    requires 1 <= s.current.month <= 12
    ensures NextMonth(PreviousMonth(s)).current == CivilDate(s.current.year, s.current.month, 1)
    ensures PreviousMonth(NextMonth(s)).current == CivilDate(s.current.year, s.current.month, 1)
  {
  }

  /** What a day cell shows: the first appointments (at most two), and how many more. */
  datatype DayCell = DayCell(shown: seq<ListedAppointment>, more: nat)

  function DayCellPreview(dayAppointments: seq<ListedAppointment>): (c: DayCell)
    ensures |c.shown| <= 2 && c.shown <= dayAppointments
    ensures |c.shown| + c.more == |dayAppointments|
    ensures c.more > 0 ==> |c.shown| == 2
  {
    if |dayAppointments| > 2 then DayCell(dayAppointments[..2], |dayAppointments| - 2)
    else DayCell(dayAppointments, 0)
  }

  /** The overflow label "+N más", shown only when appointments are hidden. */
  function MoreLabel(c: DayCell): (r: Option<string>)
    ensures r.Some? <==> c.more > 0
    ensures r.Some? ==> |r.value| >= 6 && r.value[0] == '+' && r.value[|r.value| - 4..] == " más"
    ensures r.Some? ==> AllDigits(r.value[1..|r.value| - 4]) && DecimalValue(r.value[1..|r.value| - 4]) == c.more
  {
    if c.more > 0 then
      NatToStringValue(c.more);
      var s := "+" + NatToString(c.more) + " más";
      assert s[1..|s| - 4] == NatToString(c.more);
      Some(s)
    else None
  }

  lemma MoreLabelExample(a: ListedAppointment)
    ensures MoreLabel(DayCellPreview([a, a, a, a, a])) == Some("+3 más")
  {
    assert DayCellPreview([a, a, a, a, a]).more == 3;
    assert DigitChar(3) == '3';
    assert NatToString(3) == "3";
    assert "+" + "3" + " más" == "+3 más";
  }
}

=== FILE: admin_patients.dfy ===
/** The administrator's patient list (src/app/admin/pacientes/page.tsx): the search and
    the age shown for each patient. */
module AdminPatients {
  import opened Clock
  import opened Domain
  import opened Text
  import opened Seqs

  /** `calculateAge`: the difference of the years, one less when this year's birthday
      (month, then day of month) has not come yet. */
  function Age(today: CivilDate, birth: CivilDate): (r: int)
    ensures DateLe(Anniversary(birth, r), today) && !DateLe(Anniversary(birth, r + 1), today)
  {
    var age := today.year - birth.year;
    var monthDiff := today.month - birth.month;
    if monthDiff < 0 || (monthDiff == 0 && today.day < birth.day) then age - 1 else age
  }

  /** Calendar order: by year, then month, then day. */
  predicate DateLe(a: CivilDate, b: CivilDate) {
    a.year < b.year || (a.year == b.year && (a.month < b.month || (a.month == b.month && a.day <= b.day)))
  }

  /** The `k`-th birthday: same month and day, `k` years later. */
  function Anniversary(birth: CivilDate, k: int): CivilDate {
    CivilDate(birth.year + k, birth.month, birth.day)
  }

  /** The age is the number of completed years: the birthday of that many years has been
      reached and the next one has not. */
  lemma AgeIsCompletedYears(today: CivilDate, birth: CivilDate)
    ensures DateLe(Anniversary(birth, Age(today, birth)), today)
    ensures !DateLe(Anniversary(birth, Age(today, birth) + 1), today)
  {
  }

  /** Only one count of years fits that description. */
  lemma CompletedYearsUnique(today: CivilDate, birth: CivilDate, k: int)
    requires DateLe(Anniversary(birth, k), today) && !DateLe(Anniversary(birth, k + 1), today)
    ensures k == Age(today, birth)
  {
    AgeIsCompletedYears(today, birth);
    var a := Age(today, birth);
    assert k < a ==> DateLe(Anniversary(birth, k + 1), Anniversary(birth, a));
    assert k > a ==> DateLe(Anniversary(birth, a + 1), Anniversary(birth, k));
  }

  /** On the `k`-th birthday the age is `k`. */
  lemma AgeOnBirthday(birth: CivilDate, k: int)
    ensures Age(Anniversary(birth, k), birth) == k
  {
  }

  /** The calendar day before a valid date. */
  function PreviousDay(d: CivilDate): (r: CivilDate)
    requires ValidDate(d)
    ensures ValidDate(r)
  {
    if d.day > 1 then CivilDate(d.year, d.month, d.day - 1)
    else if d.month > 1 then CivilDate(d.year, d.month - 1, DaysInMonth(d.year, d.month - 1))
    else CivilDate(d.year - 1, 12, 31)
  }

  /** On the day before the `k`-th birthday the age is still `k - 1`. */
  lemma AgeDayBeforeBirthday(birth: CivilDate, k: int)
    requires ValidDate(Anniversary(birth, k))
    ensures Age(PreviousDay(Anniversary(birth, k)), birth) == k - 1
  {
  }

  /** Someone born on or before today has a non-negative age. */
  lemma AgeNonNegative(today: CivilDate, birth: CivilDate)
    requires DateLe(birth, today)
    ensures Age(today, birth) >= 0
  {
  }

  /** An empty search keeps everyone; otherwise the lower-cased "first last" name must
      contain the lower-cased search, or the phone must contain the search as typed. */
  predicate PatientMatches(p: Patient, search: string) {
    search == "" || Contains(Lower(p.firstName + " " + p.lastName), Lower(search)) || Contains(p.phone, search)
  }

  /** `filteredPatients`. */
  function FilteredPatients(all: seq<Patient>, search: string): (r: seq<Patient>)
    ensures |r| <= |all|
    ensures forall p :: p in r <==> p in all && PatientMatches(p, search)
  {
    Filter(all, p => PatientMatches(p, search))
  }

  lemma EmptySearchKeepsAllPatients(all: seq<Patient>)
    ensures FilteredPatients(all, "") == all
  {
    FilterKeepsAll(all, p => PatientMatches(p, ""));
  }

  /** A search typed as it occurs in a patient's phone finds that patient. */
  lemma PhoneSearchFinds(all: seq<Patient>, p: Patient, search: string, k: int)
    requires p in all && OccursAt(p.phone, search, k)
    ensures p in FilteredPatients(all, search)
  {
    ContainsAtOffset(p.phone, search);
  }

  lemma FilteredPatientsKeepOrder(all: seq<Patient>, search: string)
    ensures IsSubsequence(FilteredPatients(all, search), all)
  {
    FilterIsSubsequence(all, p => PatientMatches(p, search));
  }
}

=== FILE: admin_sidebar.dfy ===
/** The administrator's navigation (src/components/layout/AdminSidebar.tsx): which menu
    entry is highlighted for the current path. */
module AdminSidebar {
  import opened Seqs

  datatype NavItem = NavItem(href: string, title: string)

  const NavItems: seq<NavItem> := [
    NavItem("/admin", "Dashboard"),
    NavItem("/admin/calendario", "Calendario"),
    NavItem("/admin/citas", "Citas"),
    NavItem("/admin/pacientes", "Pacientes"),
    NavItem("/admin/bloqueos", "Bloqueos"),
    NavItem("/admin/configuracion", "Configuración")
  ]

  const DashboardHref: string := "/admin"

  /** `isActive`: the dashboard only on exactly "/admin", any other entry whenever the path
      starts with its `href`. */
  function IsActive(href: string, pathname: string): (r: bool)
    ensures href == DashboardHref ==> (r <==> pathname == DashboardHref)
    ensures href != DashboardHref ==> (r <==> |href| <= |pathname| && pathname[..|href|] == href)
  {
    if href == DashboardHref then pathname == DashboardHref else href <= pathname
  }

  /** The highlighted entries for a path. */
  function ActiveItems(pathname: string): (r: seq<NavItem>)
    ensures forall it :: it in r <==> it in NavItems && IsActive(it.href, pathname)
  {
    Filter(NavItems, (it: NavItem) => IsActive(it.href, pathname))
  }

  /** Two prefixes of the same string are prefixes of one another. */
  lemma PrefixesComparable(a: string, b: string, p: string)
    requires a <= p && b <= p
    ensures a <= b || b <= a
  {
    if |a| <= |b| {
      assert a == p[..|a|] && b[..|a|] == p[..|a|];
    } else {
      assert b == p[..|b|] && a[..|b|] == p[..|b|];
    }
  }

  /** Strings that differ at a position both have are not prefixes of one another. */
  lemma DifferAt(a: string, b: string, k: nat)
    requires k < |a| && k < |b| && a[k] != b[k]
    ensures !(a <= b) && !(b <= a)
  {
    assert a[..k + 1] != b[..k + 1] by {
      assert a[..k + 1][k] != b[..k + 1][k];
    }
  }

  /** No entry other than the dashboard has an `href` that is a prefix of another's. */
  lemma HrefsPrefixFree(i: nat, j: nat)
    requires 1 <= i < |NavItems| && 1 <= j < |NavItems| && i != j
    ensures !(NavItems[i].href <= NavItems[j].href)
  {
    var a, b := NavItems[i].href, NavItems[j].href;
    if a[7] != b[7] {
      DifferAt(a, b, 7);
    } else {
      DifferAt(a, b, 8);
    }
  }

  lemma NavItemsDistinct()
    ensures NoDuplicates(NavItems)
  {
    forall i, j | 0 <= i < j < |NavItems| ensures NavItems[i] != NavItems[j] {
      if i == 0 {
        assert |NavItems[i].href| < |NavItems[j].href|;
      } else {
        HrefsPrefixFree(i, j);
      }
    }
  }

  /** Two different entries are never both highlighted. */
  lemma NoTwoActive(i: nat, j: nat, pathname: string)
    requires 0 <= i < j < |NavItems|
    ensures !(IsActive(NavItems[i].href, pathname) && IsActive(NavItems[j].href, pathname))
  {
    if i == 0 {
      assert |NavItems[j].href| > |DashboardHref|;
      assert !IsActive(NavItems[j].href, DashboardHref);
    } else {
      HrefsPrefixFree(i, j);
      HrefsPrefixFree(j, i);
      if NavItems[i].href <= pathname && NavItems[j].href <= pathname {
        PrefixesComparable(NavItems[i].href, NavItems[j].href, pathname);
      }
    }
  }

  /** For any path at most one entry is highlighted. */
  lemma AtMostOneActive(pathname: string)
    ensures |ActiveItems(pathname)| <= 1
  {
    var r := ActiveItems(pathname);
    if |r| >= 2 {
      NavItemsDistinct();
      FilterKeepsNoDuplicates(NavItems, (it: NavItem) => IsActive(it.href, pathname));
      assert r[0] != r[1];
      var i :| 0 <= i < |NavItems| && NavItems[i] == r[0];
      var j :| 0 <= j < |NavItems| && NavItems[j] == r[1];
      if i < j {
        NoTwoActive(i, j, pathname);
      } else {
        NoTwoActive(j, i, pathname);
      }
    }
  }

  /** A nested path such as "/admin/citas/12" highlights Citas and not the dashboard. */
  lemma NestedPathHighlightsSection()
    ensures IsActive("/admin/citas", "/admin/citas/12")
    ensures !IsActive(DashboardHref, "/admin/citas/12")
    ensures ActiveItems("/admin/citas/12") == [NavItem("/admin/citas", "Citas")]
  {
    var p := "/admin/citas/12";
    assert NavItems[2] in ActiveItems(p);
    AtMostOneActive(p);
    assert ActiveItems(p)[0] == NavItems[2];
  }
}

=== FILE: api_appointments.dfy ===
/** The appointments endpoint (src/app/api/appointments/route.ts): `POST` books an
    appointment, creating the patient (and a caregiver) on the way, and `GET` lists
    appointments under the caller's scope. The datastore is the `Store` value read by
    the request; created rows are returned in the outcome. */
module AppointmentsApi {
  import opened Wrappers
  import opened Clock
  import opened Domain
  import opened TimeText
  import opened Seqs

  /** The patient part of the booking form; `address` and `chronicDiseases` are "" when left blank. */
  datatype PatientData = PatientData(
    firstName: string,
    lastName: string,
    birthDate: CivilDate,
    phone: string,
    address: string,
    chronicDiseases: string)

  datatype CaregiverData = CaregiverData(firstName: string, lastName: string, phone: string, relationship: string)

  /** The request body; `None` stands for a field that is absent (or empty, for `date`). */
  datatype BookingRequest = BookingRequest(
    serviceType: Option<ServiceType>,
    date: Option<Instant>,
    time: string,
    reason: string,
    patientData: Option<PatientData>,
    isCaregiver: bool,
    caregiverData: Option<CaregiverData>)

  /** The rows the request can read: services, patients, appointments, blocks and the
      stored value of the `appointmentMode` setting, if any. */
  datatype Store = Store(
    services: seq<Service>,
    patients: seq<Patient>,
    appointments: seq<Appointment>,
    blocks: seq<BlockedSlot>,
    appointmentMode: Option<string>)

  /** The identifiers the datastore gives to rows this request creates. */
  datatype FreshIds = FreshIds(caregiver: nat, patient: nat, appointment: nat)

  /** 400, 404, success, or a failure (500) after the patient and caregiver rows were
      already written. */
  datatype BookingOutcome =
    | MissingData
    | ServiceNotFound
    | Booked(appointment: Appointment, patient: Patient, patientCreated: bool, caregiver: Option<Caregiver>)
    | CreateFailed(patient: Patient, patientCreated: bool, caregiver: Option<Caregiver>)

  const MissingDataError: string := "Faltan datos requeridos"
  const ServiceNotFoundError: string := "Servicio no encontrado"

  /** The required-field test: service type, date, time, reason and patient data must all be present. */
  predicate MissingFields(req: BookingRequest) {
    req.serviceType.None? || req.date.None? || req.time == "" || req.reason == "" || req.patientData.None?
  }

  /** `findUnique({ where: { type } })` on the services. */
  function FindService(services: seq<Service>, st: ServiceType): (r: Option<Service>)
    ensures r.Some? ==> r.value in services && r.value.serviceType == st
    ensures r.None? <==> forall s :: s in services ==> s.serviceType != st
  {
    if services == [] then None
    else if services[0].serviceType == st then Some(services[0])
    else FindService(services[1..], st)
  }

  /** `findUnique({ where: { id } })` on the patients. */
  function FindPatient(patients: seq<Patient>, id: nat): (r: Option<Patient>)
    ensures r.Some? ==> r.value in patients && r.value.id == id
    ensures r.None? <==> forall p :: p in patients ==> p.id != id
  {
    if patients == [] then None
    else if patients[0].id == id then Some(patients[0])
    else FindPatient(patients[1..], id)
  }

  /** JavaScript's `value || null` on a form string. */
  function OrNull(s: string): (r: Option<string>)
    ensures r.None? <==> s == ""
    ensures r.Some? ==> r.value == s
  {
    if s == "" then None else Some(s)
  }

  /** The session names a patient row that exists in the store. */
  predicate SessionPatientStored(session: Option<Session>, store: Store) {
    session.Some? && session.value.patientId.Some? &&
    exists p :: p in store.patients && p.id == session.value.patientId.value
  }

  /** The patient of a booking: the session's own patient row when it has one that exists;
      otherwise a new row from the form, linked to a new caregiver row when the form says
      the booking is made by a caregiver and the caller is logged in. */
  function ResolvePatient(req: BookingRequest, session: Option<Session>, store: Store, ids: FreshIds): (r: (Patient, bool, Option<Caregiver>))
    requires req.patientData.Some?
    ensures SessionPatientStored(session, store) ==>
              !r.1 && r.2.None? && r.0 in store.patients && r.0.id == session.value.patientId.value
    ensures !SessionPatientStored(session, store) ==>
              r.1 && r.0.id == ids.patient &&
              r.0.firstName == req.patientData.value.firstName && r.0.lastName == req.patientData.value.lastName &&
              r.0.birthDate == req.patientData.value.birthDate && r.0.phone == req.patientData.value.phone &&
              r.0.address == OrNull(req.patientData.value.address) &&
              r.0.chronicDiseases == OrNull(req.patientData.value.chronicDiseases)
    ensures !SessionPatientStored(session, store) ==>
              (r.2.Some? <==> req.isCaregiver && req.caregiverData.Some? && session.Some?)
    ensures r.2.Some? ==>
              r.2.value.id == ids.caregiver && r.2.value.userId == session.value.userId &&
              r.0.caregiverId == Some(ids.caregiver) &&
              r.2.value.firstName == req.caregiverData.value.firstName &&
              r.2.value.lastName == req.caregiverData.value.lastName &&
              r.2.value.phone == req.caregiverData.value.phone &&
              r.2.value.relationship == req.caregiverData.value.relationship
    ensures r.1 && r.2.None? ==> r.0.caregiverId.None?
  {
    var existing := if session.Some? && session.value.patientId.Some?
                    then FindPatient(store.patients, session.value.patientId.value) else None;
    if existing.Some? then (existing.value, false, None)
    else
      var d := req.patientData.value;
      var caregiver := if req.isCaregiver && req.caregiverData.Some? && session.Some?
        then Some(Caregiver(ids.caregiver, req.caregiverData.value.firstName, req.caregiverData.value.lastName,
                            req.caregiverData.value.phone, req.caregiverData.value.relationship, session.value.userId))
        else None;
      var caregiverId := if caregiver.Some? then Some(caregiver.value.id) else None;
      (Patient(ids.patient, d.firstName, d.lastName, d.birthDate, d.phone, OrNull(d.address), OrNull(d.chronicDiseases), caregiverId),
       true, caregiver)
  }

  /** The acceptance mode in force: the stored setting, or "MANUAL_CONFIRM" when it is
      missing or empty. */
  function EffectiveMode(stored: Option<string>): (mode: string)
    ensures mode != ""
    ensures stored.Some? && stored.value != "" ==> mode == stored.value
    ensures stored.None? || stored.value == "" ==> mode == "MANUAL_CONFIRM"
  {
    if stored.Some? && stored.value != "" then stored.value else "MANUAL_CONFIRM"
  }

  /** The initial status: confirmed only under "AUTO_ACCEPT". */
  function InitialStatus(stored: Option<string>): (s: AppointmentStatus)
    ensures s == Confirmed <==> stored == Some("AUTO_ACCEPT")
    ensures s != Confirmed ==> s == Pending
  {
    if EffectiveMode(stored) == "AUTO_ACCEPT" then Confirmed else Pending
  }

  /** The appointment instant: the given date with the hours and minutes of `time`,
      seconds and milliseconds zero. `None` is the invalid date a malformed time gives. */
  function AppointmentInstant(date: Instant, time: string): (r: Option<Instant>)
    ensures r.Some? <==> ParseTime(time).Some?
    ensures r.Some? ==> r.value == StartOfDay(date) + ParseTime(time).value * MsPerMinute
  {
    match ParseClock(time)
    case Some((h, m)) => SetHoursAsMinutes(date, h, m); Some(SetHours(date, h, m))
    case None => None
  }

  /** `POST /api/appointments` with the clock read as `now`. No availability, horizon or
      Sunday check is made before the appointment is written. */
  function BookAppointment(req: BookingRequest, session: Option<Session>, store: Store, ids: FreshIds, now: Instant): (r: BookingOutcome)
    ensures r.MissingData? <==> MissingFields(req)
    ensures r.ServiceNotFound? <==> !MissingFields(req) && FindService(store.services, req.serviceType.value).None?
    ensures r.Booked? <==>
      !MissingFields(req) && FindService(store.services, req.serviceType.value).Some? && ParseTime(req.time).Some?
    ensures r.Booked? ==>
      r.appointment.id == ids.appointment &&
      r.appointment.patientId == r.patient.id &&
      r.appointment.serviceId == FindService(store.services, req.serviceType.value).value.id &&
      r.appointment.reason == req.reason &&
      r.appointment.date == StartOfDay(req.date.value) + ParseTime(req.time).value * MsPerMinute &&
      r.appointment.status == InitialStatus(store.appointmentMode) &&
      (r.appointment.confirmedAt == if r.appointment.status == Confirmed then Some(now) else None)
  {
    if MissingFields(req) then MissingData
    else
      match FindService(store.services, req.serviceType.value)
      case None => ServiceNotFound
      case Some(service) =>
        var (patient, created, caregiver) := ResolvePatient(req, session, store, ids);
        match AppointmentInstant(req.date.value, req.time)
        case None => CreateFailed(patient, created, caregiver)
        case Some(instant) =>
          var status := InitialStatus(store.appointmentMode);
          var confirmedAt := if status == Confirmed then Some(now) else None;
          Booked(Appointment(ids.appointment, instant, status, req.reason, patient.id, service.id, confirmedAt),
                 patient, created, caregiver)
  }

  /** "DISABLED", "MANUAL_CONFIRM" and a missing setting all give a pending appointment
      with no confirmation time. */
  lemma NonAutoModesArePending(req: BookingRequest, session: Option<Session>, store: Store, ids: FreshIds, now: Instant)
    requires store.appointmentMode in {None, Some("DISABLED"), Some("MANUAL_CONFIRM"), Some("")}
    requires BookAppointment(req, session, store, ids, now).Booked?
    ensures BookAppointment(req, session, store, ids, now).appointment.status == Pending
    ensures BookAppointment(req, session, store, ids, now).appointment.confirmedAt == None
  {
  }

  /** The booking ignores the existing appointments and blocks: a taken, blocked or
      Sunday slot is booked just the same. */
  lemma NoAdmissionCheck(req: BookingRequest, session: Option<Session>, store: Store, ids: FreshIds, now: Instant,
                         otherAppointments: seq<Appointment>, otherBlocks: seq<BlockedSlot>)
    ensures BookAppointment(req, session, store.(appointments := otherAppointments, blocks := otherBlocks), ids, now) ==
      BookAppointment(req, session, store, ids, now)
  {
  }

  /** In particular a slot already held by another appointment is booked again, at the same instant. */
  lemma DoubleBookingAdmitted(req: BookingRequest, session: Option<Session>, store: Store, ids: FreshIds, now: Instant, held: Appointment)
    requires held in store.appointments && Occupies(held.status)
    requires !MissingFields(req) && FindService(store.services, req.serviceType.value).Some?
    requires ParseTime(req.time).Some?
    requires held.date == StartOfDay(req.date.value) + ParseTime(req.time).value * MsPerMinute
    ensures BookAppointment(req, session, store, ids, now).Booked?
    ensures BookAppointment(req, session, store, ids, now).appointment.date == held.date
  {
  }

  /** A logged-in caller whose patient row exists books as that patient: no patient or
      caregiver row is created. */
  lemma SessionPatientReused(req: BookingRequest, session: Option<Session>, store: Store, ids: FreshIds, now: Instant, p: Patient)
    requires session.Some? && session.value.patientId.Some?
    requires FindPatient(store.patients, session.value.patientId.value) == Some(p)
    requires BookAppointment(req, session, store, ids, now).Booked?
    ensures BookAppointment(req, session, store, ids, now).patient == p
    ensures !BookAppointment(req, session, store, ids, now).patientCreated
    ensures BookAppointment(req, session, store, ids, now).caregiver.None?
  {
  }

  /** A caregiver row is written exactly when a new patient is created, the form says the
      caller is a caregiver, caregiver data is present and a session exists; the new
      patient then points to it and it belongs to the session's user. */
  lemma CaregiverCreatedOnlyWhen(req: BookingRequest, session: Option<Session>, store: Store, ids: FreshIds, now: Instant)
    requires BookAppointment(req, session, store, ids, now).Booked?
    ensures var r := BookAppointment(req, session, store, ids, now);
      r.caregiver.Some? <==> r.patientCreated && req.isCaregiver && req.caregiverData.Some? && session.Some?
    ensures var r := BookAppointment(req, session, store, ids, now);
      r.caregiver.Some? ==> r.patient.caregiverId == Some(r.caregiver.value.id) && r.caregiver.value.userId == session.value.userId
  {
  }

  /** A new patient is created exactly when the session has no patient row to reuse. */
  lemma PatientCreatedWhenNoneFound(req: BookingRequest, session: Option<Session>, store: Store, ids: FreshIds, now: Instant)
    requires BookAppointment(req, session, store, ids, now).Booked?
    ensures BookAppointment(req, session, store, ids, now).patientCreated <==>
      session.None? || session.value.patientId.None? || FindPatient(store.patients, session.value.patientId.value).None?
  {
  }

  /** A malformed time fails the request only after the patient (and caregiver) rows were written. */
  lemma MalformedTimeLeavesPatient(req: BookingRequest, session: Option<Session>, store: Store, ids: FreshIds, now: Instant)
    requires !MissingFields(req) && FindService(store.services, req.serviceType.value).Some?
    requires ParseTime(req.time).None?
    requires session.None?
    ensures BookAppointment(req, session, store, ids, now).CreateFailed?
    ensures BookAppointment(req, session, store, ids, now).patientCreated
    ensures BookAppointment(req, session, store, ids, now).patient.id == ids.patient
  {
  }

  /** The list filters of `GET /api/appointments`. */
  datatype AppointmentQuery = AppointmentQuery(status: Option<AppointmentStatus>, date: Option<Instant>, patientId: Option<nat>)

  /** The patient filter in force: a patient session with a patient row always sees only its
      own appointments; anyone else gets the `patientId` parameter, if given. */
  function PatientScope(session: Option<Session>, q: AppointmentQuery): (r: Option<nat>)
    ensures session.Some? && session.value.role == PatientRole && session.value.patientId.Some? ==>
      r == session.value.patientId
    ensures !(session.Some? && session.value.role == PatientRole && session.value.patientId.Some?) ==> r == q.patientId
  {
    if session.Some? && session.value.role == PatientRole && session.value.patientId.Some?
    then session.value.patientId
    else q.patientId
  }

  predicate MatchesQuery(a: Appointment, q: AppointmentQuery, patient: Option<nat>) {
    (q.status.None? || a.status == q.status.value) &&
    (q.date.None? || OnDay(a.date, q.date.value)) &&
    (patient.None? || a.patientId == patient.value)
  }

  function DateKey(a: Appointment): int {
    a.date
  }

  /** `GET /api/appointments`: the matching appointments, ascending by date. */
  function ListAppointments(session: Option<Session>, q: AppointmentQuery, all: seq<Appointment>): (r: seq<Appointment>)
    ensures SortedBy(r, DateKey)
    ensures multiset(r) == multiset(Filter(all, a => MatchesQuery(a, q, PatientScope(session, q))))
  {
    SortBy(Filter(all, a => MatchesQuery(a, q, PatientScope(session, q))), DateKey)
  }

  /** Exactly the matching appointments are listed. */
  lemma ListedIff(session: Option<Session>, q: AppointmentQuery, all: seq<Appointment>, a: Appointment)
    ensures a in ListAppointments(session, q, all) <==> a in all && MatchesQuery(a, q, PatientScope(session, q))
  {
    var p := (x: Appointment) => MatchesQuery(x, q, PatientScope(session, q));
    FilterMembership(all, p, a);
    assert a in ListAppointments(session, q, all) <==> a in multiset(ListAppointments(session, q, all));
    assert a in Filter(all, p) <==> a in multiset(Filter(all, p));
  }

  /** A patient session sees only its own appointments, whatever `patientId` it asks for. */
  lemma PatientSeesOnlyOwn(session: Option<Session>, q: AppointmentQuery, all: seq<Appointment>)
    requires session.Some? && session.value.role == PatientRole && session.value.patientId.Some?
    ensures forall a :: a in ListAppointments(session, q, all) ==> a.patientId == session.value.patientId.value
  {
    forall a | a in ListAppointments(session, q, all) ensures a.patientId == session.value.patientId.value {
      ListedIff(session, q, all, a);
    }
  }

  /** A patient session without a patient row falls back to the `patientId` parameter. */
  lemma PatientWithoutRowUsesParameter(session: Option<Session>, q: AppointmentQuery)
    requires session.Some? && session.value.role == PatientRole && session.value.patientId.None?
    ensures PatientScope(session, q) == q.patientId
  {
  }
}

=== FILE: api_available_slots.dfy ===
/** The free-slots endpoint (src/app/api/appointments/available-slots/route.ts `GET`):
    checks its two query parameters, validates the date, and only then asks the
    availability computation. */
module AvailableSlotsApi {
  import opened Wrappers
  import opened Clock
  import opened Domain
  import opened TimeText
  import opened Schedule
  import opened Availability
  import opened BookingPolicy

  /** The query string: `date` already read as an instant and `service` as a service
      type; `None` stands for a parameter that is absent or empty. */
  datatype SlotsQuery = SlotsQuery(date: Option<Instant>, service: Option<ServiceType>)

  /** A 400 with its message, or a success carrying `data` and an optional `message`. */
  datatype SlotsResponse =
    | BadRequest(error: string)
    | Slots(data: seq<string>, message: Option<string>)

  const MissingParamsError: string := "Fecha y servicio son requeridos"

  function GetSlots(q: SlotsQuery, now: Instant, appointments: seq<Appointment>, blocks: seq<BlockedSlot>): (r: SlotsResponse)
    ensures r.BadRequest? <==> q.date.None? || q.service.None?
    ensures r.BadRequest? ==> r.error == MissingParamsError
    ensures r.Slots? && r.message.Some? ==>
      IsValidAppointmentDate(q.date.value, now) == Invalid(r.message.value) && r.data == []
    ensures r.Slots? && r.message.None? ==>
      IsValidAppointmentDate(q.date.value, now) == Valid &&
      r.data == GetAvailableSlots(q.date.value, q.service.value, now, appointments, blocks)
  {
    if q.date.None? || q.service.None? then BadRequest(MissingParamsError)
    else
      match IsValidAppointmentDate(q.date.value, now)
      case Invalid(reason) => Slots([], Some(reason))
      case Valid => Slots(GetAvailableSlots(q.date.value, q.service.value, now, appointments, blocks), None)
  }

  /** Validation runs first: a past, too distant or Sunday date gets an empty success with
      the rule's message and never reaches the availability computation. */
  lemma InvalidDateAnswersReason(q: SlotsQuery, now: Instant, appointments: seq<Appointment>, blocks: seq<BlockedSlot>)
    requires q.date.Some? && q.service.Some?
    requires IsValidAppointmentDate(q.date.value, now) != Valid
    ensures GetSlots(q, now, appointments, blocks) ==
      Slots([], Some(IsValidAppointmentDate(q.date.value, now).reason))
  {
  }

  /** Every slot the endpoint offers is on an accepted date, is one of that day's generated
      slots, and starts at least two hours after `now`. */
  lemma OfferedSlotsAreBookable(q: SlotsQuery, now: Instant, appointments: seq<Appointment>, blocks: seq<BlockedSlot>, m: nat)
    requires GetSlots(q, now, appointments, blocks).Slots?
    requires FormatTime(m) in GetSlots(q, now, appointments, blocks).data
    ensures IsValidAppointmentDate(q.date.value, now) == Valid
    ensures DayOfWeek(q.date.value) != 0 && FormatTime(m) in CandidateSlots(q.service.value, DayOfWeek(q.date.value))
    ensures StartOfDay(q.date.value) + m * MsPerMinute >= now + MinAdvanceHours * MsPerHour
  {
    AvailableAtMinute(q.date.value, q.service.value, now, appointments, blocks, m);
  }

  /** A Sunday is refused with its message, whatever the other inputs. */
  lemma SundayQueryAnswersEmpty(q: SlotsQuery, now: Instant, appointments: seq<Appointment>, blocks: seq<BlockedSlot>)
    requires q.date.Some? && q.service.Some? && DayOfWeek(q.date.value) == 0
    ensures GetSlots(q, now, appointments, blocks).Slots?
    ensures GetSlots(q, now, appointments, blocks).data == []
    ensures GetSlots(q, now, appointments, blocks).message.Some?
  {
  }
}

=== FILE: api_blocked_slots.dfy ===
/** The blocked-slots endpoint (src/app/api/blocked-slots/route.ts): `POST` lets an
    administrator close a day or a time range, `GET` lists the blocks of a day. */
module BlockedSlotsApi {
  import opened Wrappers
  import opened Clock
  import opened Domain
  import opened TimeText
  import opened Seqs
  import opened Availability

  /** The request body; `isFullDay` is `None` when absent, `serviceType` is `None` when absent or empty. */
  datatype BlockRequest = BlockRequest(
    date: Option<Instant>,
    startTime: Option<string>,
    endTime: Option<string>,
    reason: Option<string>,
    isFullDay: Option<bool>,
    serviceType: Option<ServiceType>)

  /** 401, 400, or the stored block. */
  datatype BlockOutcome = Unauthorized | MissingDate | BlockCreated(block: BlockedSlot)

  const UnauthorizedError: string := "No autorizado"
  const MissingDateError: string := "Fecha es requerida"

  predicate IsAdmin(session: Option<Session>) {
    session.Some? && session.value.role == AdminRole
  }

  /** `POST /api/blocked-slots`: only an administrator, only with a date; a full-day block is
      stored without times, any other block with its times exactly as sent. */
  function CreateBlock(session: Option<Session>, req: BlockRequest, id: nat): (r: BlockOutcome)
    ensures r.Unauthorized? <==> !IsAdmin(session)
    ensures r.MissingDate? <==> IsAdmin(session) && req.date.None?
    ensures r.BlockCreated? ==>
      r.block.id == id && r.block.date == req.date.value && r.block.reason == req.reason &&
      r.block.serviceType == req.serviceType &&
      (r.block.isFullDay <==> req.isFullDay == Some(true)) &&
      (r.block.isFullDay ==> r.block.startTime.None? && r.block.endTime.None?) &&
      (!r.block.isFullDay ==> r.block.startTime == req.startTime && r.block.endTime == req.endTime)
  {
    if !IsAdmin(session) then Unauthorized
    else if req.date.None? then MissingDate
    else
      var fullDay := req.isFullDay == Some(true);
      BlockCreated(BlockedSlot(id, req.date.value,
        if fullDay then None else req.startTime,
        if fullDay then None else req.endTime,
        req.reason, fullDay, req.serviceType))
  }

  /** The range is not checked: a block whose end comes before its start is stored as
      sent, and then covers no time at all. */
  lemma InvertedRangeStoredAndInert(session: Option<Session>, req: BlockRequest, id: nat, s: nat, e: nat, m: nat)
    requires IsAdmin(session) && req.date.Some? && req.isFullDay != Some(true)
    requires req.startTime.Some? && req.endTime.Some?
    requires ParseTime(req.startTime.value) == Some(s) && ParseTime(req.endTime.value) == Some(e) && e <= s
    ensures CreateBlock(session, req, id).BlockCreated?
    ensures CreateBlock(session, req, id).block.startTime == req.startTime
    ensures CreateBlock(session, req, id).block.endTime == req.endTime
    ensures !IsTimeInRange(FormatTime(m), CreateBlock(session, req, id).block.startTime, CreateBlock(session, req, id).block.endTime)
  {
    TimeInRangeAtMinute(m, req.startTime, req.endTime);
  }

  /** A full-day block for all services, once stored, leaves its day without slots for
      every service. */
  lemma FullDayBlockEmptiesDay(session: Option<Session>, req: BlockRequest, id: nat,
                               day: Instant, st: ServiceType, now: Instant,
                               appointments: seq<Appointment>, blocks: seq<BlockedSlot>)
    requires IsAdmin(session) && req.date.Some? && req.isFullDay == Some(true) && req.serviceType.None?
    requires InDayWindow(req.date.value, day)
    ensures CreateBlock(session, req, id).BlockCreated?
    ensures GetAvailableSlots(day, st, now, appointments, blocks + [CreateBlock(session, req, id).block]) == []
  {
    var b := CreateBlock(session, req, id).block;
    assert b in blocks + [b];
    FullDayBlockClosesDay(day, st, now, appointments, blocks + [b], b);
  }

  function BlockDate(b: BlockedSlot): int {
    b.date
  }

  /** `GET /api/blocked-slots`: the blocks of the given day (all blocks without a date),
      ascending by date. */
  function ListBlocks(day: Option<Instant>, all: seq<BlockedSlot>): (r: seq<BlockedSlot>)
    ensures SortedBy(r, BlockDate)
    ensures multiset(r) == multiset(Filter(all, (b: BlockedSlot) => day.None? || OnDay(b.date, day.value)))
  {
    SortBy(Filter(all, (b: BlockedSlot) => day.None? || OnDay(b.date, day.value)), BlockDate)
  }

  /** Exactly the blocks of that day are listed, including one stored at its last millisecond. */
  lemma ListedBlocksIff(day: Instant, all: seq<BlockedSlot>, b: BlockedSlot)
    ensures b in ListBlocks(Some(day), all) <==> b in all && StartOfDay(day) <= b.date <= EndOfDay(day)
  {
    var p := (x: BlockedSlot) => Some(day).None? || OnDay(x.date, Some(day).value);
    FilterMembership(all, p, b);
    assert b in ListBlocks(Some(day), all) <==> b in multiset(ListBlocks(Some(day), all));
    assert b in Filter(all, p) <==> b in multiset(Filter(all, p));
  }

  /** With a date, the list holds exactly the stored blocks whose date falls on that day. */
  lemma ListedBlocksSameDay(day: Instant, all: seq<BlockedSlot>, b: BlockedSlot)
    ensures b in ListBlocks(Some(day), all) <==> b in all && DayOf(b.date) == DayOf(day)
  {
    ListedBlocksIff(day, all, b);
    InclusiveDayWindow(b.date, day);
  }
}

=== FILE: availability.dfy ===
/** The free slots of one service on one day (src/lib/appointments.ts
    `isTimeInRange` and `getAvailableSlots`). The two datastore reads become
    sequence parameters filtered by the same conditions as the queries, and the
    wall clock becomes the parameter `now`. */
module Availability {
  import opened Wrappers
  import opened Clock
  import opened Domain
  import opened TimeText
  import opened Seqs
  import opened Schedule

  /** The queries' day window: `gte: startOfDay(date)` and `lt: endOfDay(date)`, so the
      last millisecond of the day is outside it. */
  predicate InDayWindow(t: Instant, date: Instant) {
    StartOfDay(date) <= t < EndOfDay(date)
  }

  /** The appointments read for the day: in the window and still holding their time. */
  predicate HoldsDay(a: Appointment, date: Instant) {
    InDayWindow(a.date, date) && Occupies(a.status)
  }

  function DayAppointments(all: seq<Appointment>, date: Instant): (r: seq<Appointment>)
    ensures forall a :: a in r <==> a in all && HoldsDay(a, date)
  {
    Filter(all, a => HoldsDay(a, date))
  }

  /** The blocks read for the day: in the window, and either for every service or for `st`. */
  predicate BlockApplies(b: BlockedSlot, date: Instant, st: ServiceType) {
    InDayWindow(b.date, date) && (b.serviceType.None? || b.serviceType == Some(st))
  }

  function DayBlocks(all: seq<BlockedSlot>, date: Instant, st: ServiceType): (r: seq<BlockedSlot>)
    ensures forall b :: b in r <==> b in all && BlockApplies(b, date, st)
  {
    Filter(all, b => BlockApplies(b, date, st))
  }

  /** A block bound as JavaScript tests it: present and not the empty string. */
  predicate Truthy(s: Option<string>) {
    s.Some? && s.value != ""
  }

  /** `isTimeInRange`: false when a bound is missing or empty, otherwise the half-open
      test `start <= time < end` on minutes (false when any of the three is NaN). */
  function IsTimeInRange(time: string, startTime: Option<string>, endTime: Option<string>): (r: bool)
    ensures !Truthy(startTime) || !Truthy(endTime) ==> !r
    ensures r ==> ParseTime(time).Some? && ParseTime(startTime.value).Some? && ParseTime(endTime.value).Some?
    ensures r ==> ParseTime(startTime.value).value <= ParseTime(time).value < ParseTime(endTime.value).value
    ensures endTime == Some(time) ==> !r
    ensures (Truthy(startTime) && Truthy(endTime) &&
             ParseTime(time).Some? && ParseTime(startTime.value).Some? && ParseTime(endTime.value).Some? &&
             ParseTime(startTime.value).value <= ParseTime(time).value < ParseTime(endTime.value).value) ==> r
  {
    if !Truthy(startTime) || !Truthy(endTime) then false
    else
      match (ParseTime(time), ParseTime(startTime.value), ParseTime(endTime.value))
      case (Some(t), Some(s), Some(e)) => s <= t < e
      case _ => false
  }

  /** The minute-level meaning of a block's time range: both bounds present, non-empty and
      readable, and minute `m` in `[start, end)`. */
  predicate RangeCovers(startTime: Option<string>, endTime: Option<string>, m: nat) {
    Truthy(startTime) && Truthy(endTime) &&
    ParseTime(startTime.value).Some? && ParseTime(endTime.value).Some? &&
    ParseTime(startTime.value).value <= m < ParseTime(endTime.value).value
  }

  /** On a rendered slot, `isTimeInRange` is exactly the minute-level range test. */
  lemma TimeInRangeAtMinute(m: nat, startTime: Option<string>, endTime: Option<string>)
    ensures IsTimeInRange(FormatTime(m), startTime, endTime) <==> RangeCovers(startTime, endTime, m)
  {
    ParseFormatRoundTrip(m);
  }

  /** A block's end time itself stays bookable, whatever its start. */
  lemma BlockEndStaysBookable(startTime: Option<string>, endTime: string, e: nat)
    requires ParseTime(endTime) == Some(e)
    ensures !IsTimeInRange(FormatTime(e), startTime, Some(endTime))
  {
    TimeInRangeAtMinute(e, startTime, Some(endTime));
  }

  /** The lead-time test: the slot's time on `date` comes before `now` plus two hours.
      A slot that does not read as a time gives an invalid date, which compares false. */
  predicate TooSoon(slot: string, date: Instant, now: Instant) {
    match ParseClock(slot)
    case Some((h, m)) => SetHours(date, h, m) < now + MinAdvanceHours * MsPerHour
    case None => false
  }

  /** Some block of the day closes the whole day or contains the slot. */
  predicate IsBlocked(slot: string, blocks: seq<BlockedSlot>) {
    exists b :: b in blocks && (b.isFullDay || IsTimeInRange(slot, b.startTime, b.endTime))
  }

  /** Some appointment of the day starts at exactly this "HH:MM", whatever its service. */
  predicate HasAppointment(slot: string, appointments: seq<Appointment>) {
    exists a :: a in appointments && FormatDateToTime(a.date) == slot
  }

  /** The filter `getAvailableSlots` applies to each generated slot, given the day's reads. */
  predicate SlotOpen(slot: string, date: Instant, now: Instant, dayAppointments: seq<Appointment>, dayBlocks: seq<BlockedSlot>) {
    !TooSoon(slot, date, now) && !IsBlocked(slot, dayBlocks) && !HasAppointment(slot, dayAppointments)
  }

  /** `getAvailableSlots(date, serviceType)`: nothing on Sunday; otherwise the day's
      generated slots (Saturday hours on Saturday) that are not too soon, not blocked and
      not taken, in their generated order. */
  function GetAvailableSlots(date: Instant, st: ServiceType, now: Instant,
                             appointments: seq<Appointment>, blocks: seq<BlockedSlot>): (r: seq<string>)
    ensures DayOfWeek(date) == 0 ==> r == []
    ensures DayOfWeek(date) != 0 ==> forall slot :: slot in r <==>
      slot in CandidateSlots(st, DayOfWeek(date)) &&
      SlotOpen(slot, date, now, DayAppointments(appointments, date), DayBlocks(blocks, date, st))
  {
    var dow := DayOfWeek(date);
    if dow == 0 then []
    else
      var dayAppointments := DayAppointments(appointments, date);
      var dayBlocks := DayBlocks(blocks, date, st);
      Filter(CandidateSlots(st, dow), slot => SlotOpen(slot, date, now, dayAppointments, dayBlocks))
  }

  /** The keep-predicate of `GetAvailableSlots` on a non-Sunday, as a function value. */
  function OpenOn(date: Instant, st: ServiceType, now: Instant,
                  appointments: seq<Appointment>, blocks: seq<BlockedSlot>): string -> bool
  {
    slot => SlotOpen(slot, date, now, DayAppointments(appointments, date), DayBlocks(blocks, date, st))
  }

  lemma AvailableIsFilter(date: Instant, st: ServiceType, now: Instant,
                          appointments: seq<Appointment>, blocks: seq<BlockedSlot>)
    requires DayOfWeek(date) != 0
    ensures GetAvailableSlots(date, st, now, appointments, blocks) ==
      Filter(CandidateSlots(st, DayOfWeek(date)), OpenOn(date, st, now, appointments, blocks))
  {
    FilterCongruence(CandidateSlots(st, DayOfWeek(date)),
      slot => SlotOpen(slot, date, now, DayAppointments(appointments, date), DayBlocks(blocks, date, st)),
      OpenOn(date, st, now, appointments, blocks));
  }

  /** No slot is invented: the result keeps the generated order and only drops slots. */
  lemma AvailableSubsequence(date: Instant, st: ServiceType, now: Instant,
                             appointments: seq<Appointment>, blocks: seq<BlockedSlot>)
    requires DayOfWeek(date) != 0
    ensures IsSubsequence(GetAvailableSlots(date, st, now, appointments, blocks), CandidateSlots(st, DayOfWeek(date)))
  {
    AvailableIsFilter(date, st, now, appointments, blocks);
    FilterIsSubsequence(CandidateSlots(st, DayOfWeek(date)), OpenOn(date, st, now, appointments, blocks));
  }

  /** No slot is offered twice. */
  lemma AvailableDistinct(date: Instant, st: ServiceType, now: Instant,
                          appointments: seq<Appointment>, blocks: seq<BlockedSlot>)
    ensures NoDuplicates(GetAvailableSlots(date, st, now, appointments, blocks))
  {
    if DayOfWeek(date) != 0 {
      var c := GetServiceCategory(st);
      var w := WindowFor(c, DayOfWeek(date));
      GeneratedSlotsDistinct(w.start, w.end, ScheduleConfig(c).duration);
      AvailableIsFilter(date, st, now, appointments, blocks);
      FilterKeepsNoDuplicates(CandidateSlots(st, DayOfWeek(date)), OpenOn(date, st, now, appointments, blocks));
    }
  }

  /** Slot minute `m` of `date` is free, read on minutes: its instant is at least two hours
      after `now`, no applicable block closes the day or covers `m`, and no held
      appointment of the day starts at minute `m`. */
  ghost predicate MinuteOpen(m: nat, date: Instant, st: ServiceType, now: Instant,
                             appointments: seq<Appointment>, blocks: seq<BlockedSlot>) {
    StartOfDay(date) + m * MsPerMinute >= now + MinAdvanceHours * MsPerHour &&
    MinuteUnblocked(m, date, st, blocks) && MinuteUntaken(m, date, appointments)
  }

  ghost predicate MinuteUnblocked(m: nat, date: Instant, st: ServiceType, blocks: seq<BlockedSlot>) {
    forall b :: b in blocks && BlockApplies(b, date, st) ==> !b.isFullDay && !RangeCovers(b.startTime, b.endTime, m)
  }

  ghost predicate MinuteUntaken(m: nat, date: Instant, appointments: seq<Appointment>) {
    forall a :: a in appointments && HoldsDay(a, date) ==> MinuteOfDay(a.date) != m
  }

  lemma TooSoonAtMinute(m: nat, date: Instant, now: Instant)
    ensures TooSoon(FormatTime(m), date, now) <==> StartOfDay(date) + m * MsPerMinute < now + MinAdvanceHours * MsPerHour
  {
    ParseClockFormatTime(m);
    SetHoursMinutes(date, m);
  }

  lemma BlockedAtMinute(m: nat, date: Instant, st: ServiceType, blocks: seq<BlockedSlot>)
    ensures IsBlocked(FormatTime(m), DayBlocks(blocks, date, st)) <==>
      exists b :: b in blocks && BlockApplies(b, date, st) && (b.isFullDay || RangeCovers(b.startTime, b.endTime, m))
  {
    forall b: BlockedSlot {
      TimeInRangeAtMinute(m, b.startTime, b.endTime);
    }
  }

  lemma AppointmentAtMinute(m: nat, date: Instant, appointments: seq<Appointment>)
    ensures HasAppointment(FormatTime(m), DayAppointments(appointments, date)) <==>
      exists a :: a in appointments && HoldsDay(a, date) && MinuteOfDay(a.date) == m
  {
    forall a: Appointment {
      FormatTimeInjective(MinuteOfDay(a.date), m);
    }
  }

  /** The slot filter, read on minutes. */
  lemma SlotOpenAtMinute(date: Instant, st: ServiceType, now: Instant,
                         appointments: seq<Appointment>, blocks: seq<BlockedSlot>, m: nat)
    ensures SlotOpen(FormatTime(m), date, now, DayAppointments(appointments, date), DayBlocks(blocks, date, st)) <==>
      MinuteOpen(m, date, st, now, appointments, blocks)
  {
    TooSoonAtMinute(m, date, now);
    BlockedAtMinute(m, date, st, blocks);
    AppointmentAtMinute(m, date, appointments);
  }

  /** The availability of a generated slot, stated on minutes. */
  lemma AvailableAtMinute(date: Instant, st: ServiceType, now: Instant,
                          appointments: seq<Appointment>, blocks: seq<BlockedSlot>, m: nat)
    requires DayOfWeek(date) != 0
    ensures FormatTime(m) in GetAvailableSlots(date, st, now, appointments, blocks) <==>
      FormatTime(m) in CandidateSlots(st, DayOfWeek(date)) && MinuteOpen(m, date, st, now, appointments, blocks)
  {
    SlotOpenAtMinute(date, st, now, appointments, blocks, m);
  }

  /** Cancelled, completed and no-show appointments never take a slot. */
  lemma ReleasedAppointmentIrrelevant(date: Instant, st: ServiceType, now: Instant,
                                      appointments: seq<Appointment>, blocks: seq<BlockedSlot>, a: Appointment)
    requires !Occupies(a.status)
    ensures GetAvailableSlots(date, st, now, appointments + [a], blocks) ==
      GetAvailableSlots(date, st, now, appointments, blocks)
  {
    var p := (x: Appointment) => HoldsDay(x, date);
    FilterAppend(appointments, [a], p);
    assert Filter([a], p) == [];
    assert DayAppointments(appointments + [a], date) == DayAppointments(appointments, date);
  }

  /** A held appointment of the day takes the slot with its exact "HH:MM", for any service. */
  lemma HeldAppointmentTakesSlot(date: Instant, st: ServiceType, now: Instant,
                                 appointments: seq<Appointment>, blocks: seq<BlockedSlot>, a: Appointment)
    requires a in appointments && HoldsDay(a, date)
    ensures FormatDateToTime(a.date) !in GetAvailableSlots(date, st, now, appointments, blocks)
  {
  }

  /** An appointment at another minute leaves a slot's availability unchanged, even when the
      two would overlap in duration. */
  lemma OtherMinuteAppointmentIrrelevant(date: Instant, st: ServiceType, now: Instant,
                                         appointments: seq<Appointment>, blocks: seq<BlockedSlot>,
                                         a: Appointment, m: nat)
    requires DayOfWeek(date) != 0
    requires MinuteOfDay(a.date) != m
    ensures FormatTime(m) in GetAvailableSlots(date, st, now, appointments + [a], blocks) <==>
      FormatTime(m) in GetAvailableSlots(date, st, now, appointments, blocks)
  {
    AvailableAtMinute(date, st, now, appointments + [a], blocks, m);
    AvailableAtMinute(date, st, now, appointments, blocks, m);
    assert MinuteUntaken(m, date, appointments + [a]) == MinuteUntaken(m, date, appointments);
  }

  /** A block scoped to another service does not affect this service's slots. */
  lemma OtherServiceBlockIrrelevant(date: Instant, st: ServiceType, now: Instant,
                                    appointments: seq<Appointment>, blocks: seq<BlockedSlot>, b: BlockedSlot)
    requires b.serviceType.Some? && b.serviceType.value != st
    ensures GetAvailableSlots(date, st, now, appointments, blocks + [b]) ==
      GetAvailableSlots(date, st, now, appointments, blocks)
  {
    var p := (x: BlockedSlot) => BlockApplies(x, date, st);
    FilterAppend(blocks, [b], p);
    assert Filter([b], p) == [];
    assert DayBlocks(blocks + [b], date, st) == DayBlocks(blocks, date, st);
  }

  /** A full-day block of the day that applies to the service leaves no slot. */
  lemma FullDayBlockClosesDay(date: Instant, st: ServiceType, now: Instant,
                              appointments: seq<Appointment>, blocks: seq<BlockedSlot>, b: BlockedSlot)
    requires b in blocks && b.isFullDay && BlockApplies(b, date, st)
    ensures GetAvailableSlots(date, st, now, appointments, blocks) == []
  {
    var dow := DayOfWeek(date);
    if dow != 0 {
      var dayAppointments := DayAppointments(appointments, date);
      var dayBlocks := DayBlocks(blocks, date, st);
      var candidates := CandidateSlots(st, dow);
      assert b in dayBlocks;
      forall i | 0 <= i < |candidates|
        ensures !SlotOpen(candidates[i], date, now, dayAppointments, dayBlocks)
      {
        assert IsBlocked(candidates[i], dayBlocks);
      }
      FilterRejectsAll(candidates, slot => SlotOpen(slot, date, now, dayAppointments, dayBlocks));
    }
  }
}

=== FILE: booking_policy.dfy ===
/** Date rules of the booking engine (src/lib/appointments.ts
    `isValidAppointmentDate` and `getNextAvailableDates`): a requested instant is
    checked against `now` and the seven-day horizon, and the date picker lists the
    coming days other than Sundays. */
module BookingPolicy {
  import opened Clock
  import opened Text
  import opened Schedule

  /** The outcome of the date check: valid, or the first failed rule's message. */
  datatype Validation = Valid | Invalid(reason: string)

  const PastReason: string := "La fecha no puede ser en el pasado"
  const SundayReason: string := "No hay servicio los domingos"

  /** The horizon message, with the configured number of days written in. */
  function HorizonReason(): string {
    "Solo puedes agendar citas con máximo " + NatToString(MaxAdvanceDays) + " días de anticipación"
  }

  /** `maxDate`: `now` advanced by `maxAdvanceDays` calendar days, time of day kept. */
  function MaxDate(now: Instant): (r: Instant)
    ensures DayOf(r) == DayOf(now) + MaxAdvanceDays
    ensures MinuteOfDay(r) == MinuteOfDay(now)
    ensures r - StartOfDay(r) == now - StartOfDay(now)
  {
    now + MaxAdvanceDays * MsPerDay
  }

  /** `isValidAppointmentDate(date)` with the clock read as `now`. The three rules compare
      instants, not calendar days, and are tried in order: past, beyond the horizon, Sunday. */
  function IsValidAppointmentDate(date: Instant, now: Instant): (v: Validation)
    ensures v == Valid <==> now <= date <= MaxDate(now) && DayOfWeek(date) != 0
    ensures v != Valid ==> v.reason in {PastReason, HorizonReason(), SundayReason}
    ensures v == Invalid(PastReason) <==> date < now
    ensures v == Invalid(HorizonReason()) <==> now <= date && date > MaxDate(now)
    ensures v == Invalid(SundayReason) <==> now <= date <= MaxDate(now) && DayOfWeek(date) == 0
  {
    if date < now then Invalid(PastReason)
    else if date > MaxDate(now) then Invalid(HorizonReason())
    else if DayOfWeek(date) == 0 then Invalid(SundayReason)
    else Valid
  }

  lemma HorizonReasonText()
    ensures HorizonReason() == "Solo puedes agendar citas con máximo 7 días de anticipación"
  {
  }

  /** Because instants are compared, the midnight of the current day is already in the past
      once the day has begun: a request for "today" is rejected after 00:00. */
  lemma TodayMidnightIsPast(now: Instant)
    requires now != StartOfDay(now)
    ensures IsValidAppointmentDate(StartOfDay(now), now) == Invalid(PastReason)
  {
  }

  /** The horizon is inclusive to the millisecond: exactly seven days ahead passes the
      horizon rule, one millisecond later fails it. */
  lemma HorizonBoundary(now: Instant)
    ensures IsValidAppointmentDate(MaxDate(now), now) != Invalid(HorizonReason())
    ensures IsValidAppointmentDate(MaxDate(now) + 1, now) == Invalid(HorizonReason())
  {
  }

  /** An accepted date is never a Sunday, never in the past and at most seven days ahead. */
  lemma ValidDateBounds(date: Instant, now: Instant)
    requires IsValidAppointmentDate(date, now) == Valid
    ensures DayOfWeek(date) != 0 && now <= date && DayOf(date) <= DayOf(now) + MaxAdvanceDays
  {
  }

  /** The day numbers `d0, d0 + 1, ..., d0 + n - 1` that are not Sundays, ascending. */
  function OpenDaysFrom(d0: int, n: nat): (r: seq<int>)
    ensures |r| <= n
    ensures forall i :: 0 <= i < |r| ==> !IsSunday(r[i]) && d0 <= r[i] < d0 + n
    decreases n
  {
    if n == 0 then []
    else if IsSunday(d0 + n - 1) then OpenDaysFrom(d0, n - 1)
    else OpenDaysFrom(d0, n - 1) + [d0 + n - 1]
  }

  lemma {:induction false} OpenDaysAscending(d0: int, n: nat)
    ensures forall i, j :: 0 <= i < j < |OpenDaysFrom(d0, n)| ==> OpenDaysFrom(d0, n)[i] < OpenDaysFrom(d0, n)[j]
    decreases n
  {
    if n > 0 {
      OpenDaysAscending(d0, n - 1);
    }
  }

  /** Every non-Sunday of the scanned days is listed. */
  lemma {:induction false} OpenDaysComplete(d0: int, n: nat, d: int)
    requires d0 <= d < d0 + n && !IsSunday(d)
    ensures d in OpenDaysFrom(d0, n)
    decreases n
  {
    if d < d0 + n - 1 {
      OpenDaysComplete(d0, n - 1, d);
    } else {
      assert OpenDaysFrom(d0, n) == OpenDaysFrom(d0, n - 1) + [d];
    }
  }

  /** A shorter scan lists a prefix of a longer one. */
  lemma {:induction false} OpenDaysPrefix(d0: int, m: nat, n: nat)
    requires m <= n
    ensures OpenDaysFrom(d0, m) <= OpenDaysFrom(d0, n)
    decreases n - m
  {
    if m < n {
      OpenDaysPrefix(d0, m, n - 1);
      assert OpenDaysFrom(d0, n - 1) <= OpenDaysFrom(d0, n);
    }
  }

  /** The midnights of a list of day numbers. */
  function Midnights(ds: seq<int>): (r: seq<Instant>)
    ensures |r| == |ds|
    ensures forall i :: 0 <= i < |ds| ==> r[i] == Midnight(ds[i])
  {
    seq(|ds|, i requires 0 <= i < |ds| => Midnight(ds[i]))
  }

  lemma MidnightsSnoc(ds: seq<int>, d: int)
    ensures Midnights(ds + [d]) == Midnights(ds) + [Midnight(d)]
  {
  }

  /** One more scanned day adds its midnight unless it is a Sunday. */
  lemma ScanStep(today: Instant, d0: int, i: nat)
    requires today == StartOfDay(today) && DayOf(today) == d0
    ensures today + i * MsPerDay == Midnight(d0 + i)
    ensures Midnights(OpenDaysFrom(d0, i + 1)) ==
      Midnights(OpenDaysFrom(d0, i)) + (if DayOfWeek(today + i * MsPerDay) != 0 then [today + i * MsPerDay] else [])
  {
    assert today == d0 * MsPerDay;
    assert (d0 + i) * MsPerDay == d0 * MsPerDay + i * MsPerDay;
    if !IsSunday(d0 + i) {
      MidnightsSnoc(OpenDaysFrom(d0, i), d0 + i);
    }
  }

  function Min(a: int, b: int): int {
    if a <= b then a else b
  }

  /** The dates listed by a day scan: midnights, none on a Sunday, strictly ascending,
      from `d0` on, and with no skipped non-Sunday day between the first and the last. */
  ghost predicate ConsecutiveOpenMidnights(dates: seq<Instant>, d0: int) {
    (forall k :: 0 <= k < |dates| ==>
       StartOfDay(dates[k]) == dates[k] && DayOfWeek(dates[k]) != 0 && DayOf(dates[k]) >= d0) &&
    (forall k, l :: 0 <= k < l < |dates| ==> dates[k] < dates[l]) &&
    (|dates| > 0 ==> forall d :: d0 <= d <= DayOf(dates[|dates| - 1]) && !IsSunday(d) ==> Midnight(d) in dates)
  }

  lemma ScanDatesAreOpenMidnights(d0: int, n: nat, len: nat, dates: seq<Instant>)
    requires len <= |OpenDaysFrom(d0, n)| && dates == Midnights(OpenDaysFrom(d0, n)[..len])
    ensures forall k :: 0 <= k < |dates| ==>
      StartOfDay(dates[k]) == dates[k] && DayOfWeek(dates[k]) != 0 && DayOf(dates[k]) >= d0
  {
  }

  lemma ScanDatesAscending(d0: int, n: nat, len: nat, dates: seq<Instant>)
    requires len <= |OpenDaysFrom(d0, n)| && dates == Midnights(OpenDaysFrom(d0, n)[..len])
    ensures forall k, l :: 0 <= k < l < |dates| ==> dates[k] < dates[l]
  {
    var ds := OpenDaysFrom(d0, n);
    OpenDaysAscending(d0, n);
    forall k, l | 0 <= k < l < |dates| ensures dates[k] < dates[l] {
      assert ds[k] < ds[l];
    }
  }

  lemma ScanDatesComplete(d0: int, n: nat, len: nat, dates: seq<Instant>)
    requires 0 < len <= |OpenDaysFrom(d0, n)| && dates == Midnights(OpenDaysFrom(d0, n)[..len])
    ensures forall d :: d0 <= d <= DayOf(dates[|dates| - 1]) && !IsSunday(d) ==> Midnight(d) in dates
  {
    var ds := OpenDaysFrom(d0, n);
    OpenDaysAscending(d0, n);
    forall d | d0 <= d <= DayOf(dates[len - 1]) && !IsSunday(d)
      ensures Midnight(d) in dates
    {
      OpenDaysComplete(d0, n, d);
      var i :| 0 <= i < |ds| && ds[i] == d;
      assert i < len by {
        assert ds[i] <= ds[len - 1];
      }
      assert dates[i] == Midnight(d);
    }
  }

  lemma ScanIsConsecutive(d0: int, n: nat, len: nat)
    requires len <= |OpenDaysFrom(d0, n)|
    ensures ConsecutiveOpenMidnights(Midnights(OpenDaysFrom(d0, n)[..len]), d0)
  {
    var dates := Midnights(OpenDaysFrom(d0, n)[..len]);
    ScanDatesAreOpenMidnights(d0, n, len, dates);
    ScanDatesAscending(d0, n, len, dates);
    if len > 0 {
      ScanDatesComplete(d0, n, len, dates);
    }
  }

  /** Where the bounded scan stops: after `days + 7` days, or once `days` dates are listed;
      either way it has listed a prefix of the full scan of `days + 7` days. */
  lemma BoundedScanExit(d0: int, days: int, i: nat)
    requires days > 0 && i <= days + 7
    requires i == days + 7 || |OpenDaysFrom(d0, i)| >= days
    requires |OpenDaysFrom(d0, i)| <= days
    ensures |OpenDaysFrom(d0, i)| == Min(days, |OpenDaysFrom(d0, days + 7)|)
    ensures OpenDaysFrom(d0, i) == OpenDaysFrom(d0, days + 7)[..|OpenDaysFrom(d0, i)|]
  {
    OpenDaysPrefix(d0, i, days + 7);
  }

  /** `getNextAvailableDates(days)` with the clock read as `now`: scans the days from
      today's midnight, at most `days + 7` of them, and keeps the non-Sundays until
      `days` are listed. */
  method GetNextAvailableDates(days: int, now: Instant) returns (dates: seq<Instant>)
    ensures days <= 0 ==> dates == []
    ensures days > 0 ==> |dates| == Min(days, |OpenDaysFrom(DayOf(now), days + 7)|)
    ensures days > 0 ==> dates == Midnights(OpenDaysFrom(DayOf(now), days + 7)[..|dates|])
    ensures ConsecutiveOpenMidnights(dates, DayOf(now))
  {
    var today := StartOfDay(now);
    ghost var d0 := DayOf(now);
    dates := [];
    var i := 0;
    while i < days + 7 && |dates| < days
      invariant days > 0 ==> 0 <= i <= days + 7
      invariant days <= 0 ==> i == 0
      invariant dates == Midnights(OpenDaysFrom(d0, i))
      invariant |dates| <= if days > 0 then days else 0
    {
      var date := today + i * MsPerDay;
      ScanStep(today, d0, i);
      if DayOfWeek(date) != 0 {
        dates := dates + [date];
      }
      i := i + 1;
    }
    if days > 0 {
      BoundedScanExit(d0, days, i);
      ScanIsConsecutive(d0, days + 7, |dates|);
    }
  }

  lemma OpenCountStep(d0: int, n: nat)
    ensures |OpenDaysFrom(d0, n + 1)| == |OpenDaysFrom(d0, n)| + (if IsSunday(d0 + n) then 0 else 1)
  {
  }

  /** Day `j` of a week starting on weekday `w` is a Sunday exactly when `w + j` is 0 or 7. */
  lemma SundayInWeek(a: int, j: nat)
    requires j < 7
    ensures IsSunday(a + j) <==> Weekday(a) + j == 0 || Weekday(a) + j == 7
  {
    WeekdayShift(a, j);
  }

  /** Every run of seven consecutive days holds exactly one Sunday. */
  lemma WeekHasSixOpenDays(d0: int, n: nat)
    ensures |OpenDaysFrom(d0, n + 7)| == |OpenDaysFrom(d0, n)| + 6
  {
    var a := d0 + n;
    SundayInWeek(a, 0); SundayInWeek(a, 1); SundayInWeek(a, 2); SundayInWeek(a, 3);
    SundayInWeek(a, 4); SundayInWeek(a, 5); SundayInWeek(a, 6);
    OpenCountStep(d0, n); OpenCountStep(d0, n + 1); OpenCountStep(d0, n + 2);
    OpenCountStep(d0, n + 3); OpenCountStep(d0, n + 4); OpenCountStep(d0, n + 5);
    OpenCountStep(d0, n + 6);
  }

  /** `k` whole weeks hold `6 * k` open days. */
  lemma {:induction false} OpenDaysInWeeks(d0: int, k: nat)
    ensures |OpenDaysFrom(d0, 7 * k)| == 6 * k
  {
    if k > 0 {
      OpenDaysInWeeks(d0, k - 1);
      WeekHasSixOpenDays(d0, 7 * (k - 1));
    }
  }

  /** The scan bound `days + 7` leaves room for only one skipped Sunday per extra week:
      for `days = 7 * k` with `k >= 7` the scan holds fewer than `days` open days, so
      `getNextAvailableDates` returns a short list. With `days = 49` it lists 48 dates. */
  lemma ScanBoundTooShort(d0: int, k: nat)
    requires k >= 7
    ensures |OpenDaysFrom(d0, 7 * k + 7)| == 6 * k + 6 < 7 * k
  {
    OpenDaysInWeeks(d0, k + 1);
  }

  lemma FortyNineDaysGiveFortyEight(d0: int)
    ensures |OpenDaysFrom(d0, 49 + 7)| == 48
  {
    ScanBoundTooShort(d0, 7);
  }

  /** The scan the date pickers intend: from today's midnight, keep the non-Sundays until
      exactly `days` are listed (the booking wizard's `getAvailableDates`, with no scan
      bound). */
  method NextAvailableDates(days: nat, now: Instant) returns (dates: seq<Instant>)
    ensures |dates| == days
    ensures exists n: nat :: dates == Midnights(OpenDaysFrom(DayOf(now), n))
    ensures ConsecutiveOpenMidnights(dates, DayOf(now))
  {
    var today := StartOfDay(now);
    ghost var d0 := DayOf(now);
    dates := [];
    var i := 0;
    while |dates| < days
      invariant dates == Midnights(OpenDaysFrom(d0, i))
      invariant |dates| <= days
      decreases 2 * (days - |dates|) + (if IsSunday(d0 + i) then 1 else 0)
    {
      var date := today + i * MsPerDay;
      ScanStep(today, d0, i);
      if DayOfWeek(date) != 0 {
        dates := dates + [date];
      } else {
        WeekdayShift(d0 + i, 1);
      }
      i := i + 1;
    }
    ScanIsConsecutive(d0, i, |dates|);
    assert OpenDaysFrom(d0, i)[..|dates|] == OpenDaysFrom(d0, i);
  }
}

=== FILE: booking_wizard.dfy ===
/** The public booking wizard (src/app/agendar/page.tsx): the dates it offers, the
    per-step gate `canProceed`, and the state changes its controls and fetches make. The
    page is a state machine over `Wizard`; rendering is not modelled. */
module BookingWizard {
  import opened Wrappers
  import opened Clock
  import opened Domain
  import opened BookingPolicy

  /** The form fields the wizard's gates read; text fields are "" until filled. */
  datatype Form = Form(
    serviceType: Option<ServiceType>,
    date: string,
    time: string,
    firstName: string,
    lastName: string,
    birthDate: string,
    phone: string,
    reason: string)

  /** Step 1 service, 2 date and time, 3 patient details, 4 confirmation. `sent` is the
      form of the booking request in flight (the page's `isLoading`), if any. */
  datatype Wizard = Wizard(step: int, form: Form, slots: seq<string>, error: string, sent: Option<Form>)

  datatype DetailField = FirstName | LastName | BirthDate | Phone | Reason

  datatype WizardEvent =
    | ChooseService(st: ServiceType)
    | ChooseDate(date: string)
    | ChooseTime(slot: string)
    | EditDetail(field: DetailField, value: string)
    | SlotsArrived(data: Option<seq<string>>)
    | SlotsFailed
    | NextStep
    | PreviousStep
    | SubmitStarted
    | SubmitDone(ok: bool, message: string)

  /** The wizard as the page opens, with the service taken from the `service` query parameter. */
  function Initial(service: Option<ServiceType>): (w: Wizard)
    ensures w.step == 1 && w.form.serviceType == service && w.form.date == "" && w.form.time == ""
    ensures w.sent.None?
  {
    Wizard(1, Form(service, "", "", "", "", "", "", ""), [], "", None)
  }

  /** The five personal fields step 3 asks for are all filled. */
  predicate DetailsComplete(f: Form) {
    f.firstName != "" && f.lastName != "" && f.birthDate != "" && f.phone != "" && f.reason != ""
  }

  /** `canProceed`: what each step needs before the wizard may move on. */
  function CanProceed(w: Wizard): (ok: bool)
    ensures w.step == 1 ==> (ok <==> w.form.serviceType.Some?)
    ensures w.step == 2 ==> (ok <==> w.form.date != "" && w.form.time != "")
    ensures w.step == 3 ==> (ok <==> w.form.firstName != "" && w.form.lastName != "" &&
                                      w.form.birthDate != "" && w.form.phone != "" && w.form.reason != "")
    ensures w.step !in {1, 2, 3} ==> !ok
  {
    match w.step
    case 1 => w.form.serviceType.Some?
    case 2 => w.form.date != "" && w.form.time != ""
    case 3 => DetailsComplete(w.form)
    case _ => false
  }

  function SetDetail(f: Form, field: DetailField, value: string): Form {
    match field
    case FirstName => f.(firstName := value)
    case LastName => f.(lastName := value)
    case BirthDate => f.(birthDate := value)
    case Phone => f.(phone := value)
    case Reason => f.(reason := value)
  }

  /** The effect of one event. Controls act only on the step that shows them ("Siguiente"
      on steps 1-2 when `canProceed`, "Anterior" on steps 2-3 at any time, "Confirmar Cita"
      on step 3 when `canProceed` and no request is in flight); fetch results arrive at any
      time. Picking a date and receiving a slot list both clear the chosen time. Starting a
      submission clears the error and records the form sent; its response is applied
      whatever the step is by then: success moves to step 4, failure shows the message. */
  function Apply(w: Wizard, e: WizardEvent): (r: Wizard)
    ensures 1 <= w.step <= 4 ==> 1 <= r.step <= 4
    ensures e.ChooseDate? || e.SlotsArrived? ==> r.form.time == "" || r == w
  {
    match e
    case ChooseService(st) => if w.step == 1 then w.(form := w.form.(serviceType := Some(st))) else w
    case ChooseDate(d) => if w.step == 2 then w.(form := w.form.(date := d, time := "")) else w
    case ChooseTime(t) => if w.step == 2 && w.form.date != "" && t in w.slots then w.(form := w.form.(time := t)) else w
    case EditDetail(field, v) => if w.step == 3 then w.(form := SetDetail(w.form, field, v)) else w
    case SlotsArrived(data) => w.(slots := data.GetOr([]), form := w.form.(time := ""))
    case SlotsFailed => w.(slots := [])
    case NextStep => if w.step < 3 && CanProceed(w) then w.(step := w.step + 1) else w
    case PreviousStep => if 1 < w.step < 4 then w.(step := w.step - 1) else w
    case SubmitStarted =>
      if w.step == 3 && CanProceed(w) && w.sent.None? then w.(error := "", sent := Some(w.form)) else w
    case SubmitDone(ok, message) =>
      if w.sent.Some? then
        (if ok then w.(step := 4, sent := None) else w.(error := message, sent := None))
      else w
  }

  /** The step always stays between 1 and 4. */
  lemma StepStaysInRange(w: Wizard, e: WizardEvent)
    requires 1 <= w.step <= 4
    ensures 1 <= Apply(w, e).step <= 4
  {
  }

  /** A request is put in flight only by "Confirmar Cita" on a complete step 3, and only one
      at a time; it carries the form as it was then. */
  lemma SubmitOnlyFromCompleteStepThree(w: Wizard, e: WizardEvent)
    requires w.sent.None? && Apply(w, e).sent.Some?
    ensures e.SubmitStarted? && w.step == 3 && CanProceed(w)
    ensures Apply(w, e).sent == Some(w.form) && Apply(w, e).error == ""
  {
  }

  /** Every request in flight carries complete personal details. */
  ghost predicate SentComplete(w: Wizard) {
    w.sent.Some? ==> DetailsComplete(w.sent.value)
  }

  lemma SentStaysComplete(w: Wizard, e: WizardEvent)
    requires SentComplete(w)
    ensures SentComplete(Apply(w, e))
  {
  }

  /** The confirmation step is entered only by a successful response to a request in flight. */
  lemma ConfirmationOnlyAfterSuccess(w: Wizard, e: WizardEvent)
    requires w.step != 4 && Apply(w, e).step == 4
    ensures e.SubmitDone? && e.ok && w.sent.Some?
    ensures SentComplete(w) ==> DetailsComplete(w.sent.value)
  {
  }

  /** The response is applied whatever the step is by then: a request sent from step 3,
      followed by "Anterior", still moves the wizard from step 2 straight to step 4. */
  lemma ConfirmationAfterGoingBack(w: Wizard)
    requires w.step == 3 && CanProceed(w) && w.sent.None?
    ensures Apply(Apply(w, SubmitStarted), PreviousStep).step == 2
    ensures Apply(Apply(Apply(w, SubmitStarted), PreviousStep), SubmitDone(true, "")).step == 4
  {
  }

  /** Once confirmed, the wizard stays confirmed. */
  lemma ConfirmationIsFinal(w: Wizard, e: WizardEvent)
    requires w.step == 4
    ensures Apply(w, e).step == 4
  {
  }

  /** The step advances by one through "Siguiente" when its gate is open, or to step 4 by a
      successful response to a request in flight; nothing else moves it forwards. */
  lemma ForwardOnlyWhenGateOpen(w: Wizard, e: WizardEvent)
    requires Apply(w, e).step > w.step
    ensures (e.NextStep? && CanProceed(w) && Apply(w, e).step == w.step + 1) ||
            (e.SubmitDone? && e.ok && w.sent.Some? && Apply(w, e).step == 4)
  {
  }

  /** Choosing a date and receiving a slot list both clear the chosen time. */
  lemma TimeResets(w: Wizard, d: string, data: Option<seq<string>>)
    requires w.step == 2
    ensures Apply(w, ChooseDate(d)).form.time == ""
    ensures Apply(w, SlotsArrived(data)).form.time == ""
  {
  }

  /** A chosen time is always one of the offered slots, or nothing. */
  ghost predicate TimeOffered(w: Wizard) {
    w.form.time == "" || w.form.time in w.slots
  }

  lemma TimeStaysOffered(w: Wizard, e: WizardEvent)
    requires TimeOffered(w)
    requires !e.SlotsFailed?
    ensures TimeOffered(Apply(w, e))
  {
  }

  /** A failed slot fetch empties the list but keeps the chosen time. */
  lemma FailedFetchKeepsTime(w: Wizard)
    ensures Apply(w, SlotsFailed).slots == [] && Apply(w, SlotsFailed).form.time == w.form.time
  {
  }

  /** `getAvailableDates`: the next seven days other than Sundays, from today's midnight. */
  method GetAvailableDates(now: Instant) returns (dates: seq<Instant>)
    ensures |dates| == 7
    ensures forall k :: 0 <= k < |dates| ==> DayOfWeek(dates[k]) != 0 && StartOfDay(dates[k]) == dates[k]
    ensures forall k, l :: 0 <= k < l < |dates| ==> dates[k] < dates[l]
    ensures ConsecutiveOpenMidnights(dates, DayOf(now))
  {
    dates := NextAvailableDates(7, now);
  }
}

=== FILE: clock.dfy ===
/** Time as the source manipulates it through JavaScript `Date`: an instant
    is a whole number of milliseconds on the clinic's local time line (time
    zones and daylight saving are not modelled), a day is the number of
    whole days since 1970-01-01, and calendar dates are proleptic Gregorian. */
module Clock {

  /** Milliseconds since 1970-01-01 00:00 local time. */
  type Instant = int

  const MsPerMinute: int := 60_000
  const MsPerHour: int := 3_600_000
  const MsPerDay: int := 86_400_000

  /** The day an instant falls on, counted from 1970-01-01 (day 0). */
  function DayOf(t: Instant): int {
    t / MsPerDay
  }

  /** `getDay()` of a day number: 0 = Sunday, ..., 6 = Saturday (day 0 was a Thursday). */
  function Weekday(day: int): (w: int)
    ensures 0 <= w < 7
  {
    (day + 4) % 7
  }

  function DayOfWeek(t: Instant): (w: int)
    ensures 0 <= w < 7
  {
    Weekday(DayOf(t))
  }

  /** The weekday `j` days later. */
  lemma WeekdayShift(a: int, j: nat)
    ensures Weekday(a + j) == (Weekday(a) + j) % 7
  {
  }

  predicate IsSunday(day: int) {
    Weekday(day) == 0
  }

  /** `setHours(0, 0, 0, 0)`. */
  function StartOfDay(t: Instant): (r: Instant)
    ensures r <= t < r + MsPerDay
    ensures r % MsPerDay == 0
    ensures DayOf(r) == DayOf(t)
  {
    DayOf(t) * MsPerDay
  }

  /** Midnight of day number `day`; advancing a midnight with `setDate(getDate() + i)`
      gives the midnight of day `day + i`. */
  function Midnight(day: int): (r: Instant)
    ensures DayOf(r) == day && StartOfDay(r) == r
    ensures DayOfWeek(r) == Weekday(day)
  {
    day * MsPerDay
  }

  /** `setHours(23, 59, 59, 999)`: the last millisecond of the day. */
  function EndOfDay(t: Instant): (r: Instant)
    ensures StartOfDay(t) <= r && DayOf(r) == DayOf(t)
    ensures DayOf(r + 1) == DayOf(t) + 1
  {
    StartOfDay(t) + MsPerDay - 1
  }

  /** The list routes' day filter: `[00:00:00.000, 23:59:59.999]` of the given day, inclusive. */
  predicate OnDay(t: Instant, day: Instant) {
    StartOfDay(day) <= t <= EndOfDay(day)
  }

  /** The inclusive window from `StartOfDay` to `EndOfDay` holds exactly the instants of that day. */
  lemma InclusiveDayWindow(x: Instant, t: Instant)
    ensures StartOfDay(t) <= x <= EndOfDay(t) <==> DayOf(x) == DayOf(t)
  {
    var d := DayOf(t);
    if DayOf(x) == d {
      assert StartOfDay(x) == StartOfDay(t);
    }
    if StartOfDay(t) <= x <= EndOfDay(t) {
      assert d * MsPerDay <= x < (d + 1) * MsPerDay;
    }
  }

  /** `setHours(h, m, 0, 0)`: the day of `t` at `h:m`; hours past 23 roll into later days, as in JavaScript. */
  function SetHours(t: Instant, h: nat, m: nat): Instant {
    StartOfDay(t) + h * MsPerHour + m * MsPerMinute
  }

  /** Whole minutes elapsed since the start of the instant's day. */
  function MinuteOfDay(t: Instant): (m: nat)
    ensures m < 1440
  {
    (t - StartOfDay(t)) / MsPerMinute
  }

  /** `setHours(h, m, 0, 0)` where `h`/`m` are the hour and minute of minute-of-day `mm`. */
  lemma SetHoursMinutes(t: Instant, mm: nat)
    ensures SetHours(t, mm / 60, mm % 60) == StartOfDay(t) + mm * MsPerMinute
  {
    assert mm == (mm / 60) * 60 + mm % 60;
    assert (mm / 60) * MsPerHour == (mm / 60) * 60 * MsPerMinute;
  }

  /** `setHours(h, m, 0, 0)` lands `h * 60 + m` whole minutes after the day's midnight. */
  lemma SetHoursAsMinutes(t: Instant, h: nat, m: nat)
    ensures SetHours(t, h, m) == StartOfDay(t) + (h * 60 + m) * MsPerMinute
  {
    assert h * MsPerHour == h * 60 * MsPerMinute;
  }

  /** A proleptic Gregorian calendar date; `month` is 1..12 (JavaScript's `getMonth()` is 0..11). */
  datatype CivilDate = CivilDate(year: int, month: int, day: int)

  predicate IsLeapYear(y: int) {
    (y % 4 == 0 && y % 100 != 0) || y % 400 == 0
  }

  /** The number of days of month `m` of year `y` (`new Date(y, m, 0).getDate()` in JavaScript terms). */
  function DaysInMonth(y: int, m: int): (n: int)
    requires 1 <= m <= 12
    ensures 28 <= n <= 31
  {
    if m == 2 then (if IsLeapYear(y) then 29 else 28)
    else if m == 4 || m == 6 || m == 9 || m == 11 then 30
    else 31
  }

  predicate ValidDate(d: CivilDate) {
    1 <= d.month <= 12 && 1 <= d.day <= DaysInMonth(d.year, d.month)
  }

  /** Day number of a calendar date (H. Hinnant's days-from-civil; 1970-01-01 is day 0). */
  function DaysFromCivil(d: CivilDate): int {
    var y := if d.month <= 2 then d.year - 1 else d.year;
    var era := y / 400;
    var yoe := y - era * 400;
    var mp := if d.month > 2 then d.month - 3 else d.month + 9;
    var doy := (153 * mp + 2) / 5 + d.day - 1;
    var doe := yoe * 365 + yoe / 4 - yoe / 100 + doy;
    era * 146097 + doe - 719468
  }

  /** Calendar date of a day number (H. Hinnant's civil-from-days), as `getFullYear`/`getMonth`/`getDate`. */
  function CivilFromDays(z0: int): CivilDate {
    var z := z0 + 719468;
    var era := z / 146097;
    var doe := z - era * 146097;
    var yoe := (doe - doe / 1460 + doe / 36524 - doe / 146096) / 365;
    var y := yoe + era * 400;
    var doy := doe - (365 * yoe + yoe / 4 - yoe / 100);
    var mp := (5 * doy + 2) / 153;
    var day := doy - (153 * mp + 2) / 5 + 1;
    var month := if mp < 10 then mp + 3 else mp - 9;
    CivilDate(if month <= 2 then y + 1 else y, month, day)
  }

  /** The calendar date of an instant. */
  function CivilOf(t: Instant): CivilDate {
    CivilFromDays(DayOf(t))
  }

  /** Consecutive days of one month have consecutive day numbers. */
  lemma DaysFromCivilWithinMonth(y: int, m: int, d: int)
    ensures DaysFromCivil(CivilDate(y, m, d)) == DaysFromCivil(CivilDate(y, m, 1)) + d - 1
  {
  }
}

=== FILE: domain.dfy ===
/** The entities the booking engine and its callers work on (the source's
    `src/types/index.ts` and the datastore rows), as immutable records. */
module Domain {
  import opened Wrappers
  import opened Clock

  datatype ServiceType = ConsultaGastro | ConsultaNutricion | Endoscopia | Colonoscopia

  /** Short consultations (30 minutes) or long procedures (60 minutes). */
  datatype ServiceCategory = Consulta | Procedimiento

  datatype AppointmentStatus = Pending | Confirmed | Cancelled | Completed | NoShow

  datatype UserRole = PatientRole | AdminRole

  /** An appointment row; `date` is the instant the appointment starts. */
  datatype Appointment = Appointment(
    id: nat,
    date: Instant,
    status: AppointmentStatus,
    reason: string,
    patientId: nat,
    serviceId: nat,
    confirmedAt: Option<Instant>)

  datatype Service = Service(id: nat, serviceType: ServiceType, name: string)

  datatype Patient = Patient(
    id: nat,
    firstName: string,
    lastName: string,
    birthDate: CivilDate,
    phone: string,
    address: Option<string>,
    chronicDiseases: Option<string>,
    caregiverId: Option<nat>)

  datatype Caregiver = Caregiver(
    id: nat,
    firstName: string,
    lastName: string,
    phone: string,
    relationship: string,
    userId: nat)

  /** An administrator-defined blackout: a whole day, or the times `[startTime, endTime)`
      of that day; `serviceType == None` applies it to every service. */
  datatype BlockedSlot = BlockedSlot(
    id: nat,
    date: Instant,
    startTime: Option<string>,
    endTime: Option<string>,
    reason: Option<string>,
    isFullDay: bool,
    serviceType: Option<ServiceType>)

  /** The logged-in user as the session cookie describes it. */
  datatype Session = Session(userId: nat, role: UserRole, patientId: Option<nat>)

  /** An appointment as the appointments list returns it, joined with its patient and service. */
  datatype ListedAppointment = ListedAppointment(appointment: Appointment, patient: Patient, service: Service)

  /** The statuses in which an appointment still holds its time. */
  predicate Occupies(s: AppointmentStatus) {
    s == Pending || s == Confirmed
  }

  /** A status change sent for one appointment. */
  datatype StatusUpdate = StatusUpdate(appointmentId: nat, status: AppointmentStatus)
}

=== FILE: my_appointments.dfy ===
/** The patient's own appointment list (src/app/mi-cuenta/citas/page.tsx): the split into
    upcoming and past appointments, and the cancel action. */
module MyAppointments {
  import opened Wrappers
  import opened Clock
  import opened Domain
  import opened Seqs

  /** Upcoming: not yet started (`date >= now`) and still pending or confirmed. */
  predicate IsUpcoming(a: Appointment, now: Instant) {
    a.date >= now && (a.status == Pending || a.status == Confirmed)
  }

  /** Past: already started, or completed, cancelled or a no-show. */
  predicate IsPast(a: Appointment, now: Instant) {
    a.date < now || a.status == Completed || a.status == Cancelled || a.status == NoShow
  }

  function UpcomingAppointments(all: seq<Appointment>, now: Instant): (r: seq<Appointment>)
    ensures forall a :: a in r <==> a in all && a.date >= now && Occupies(a.status)
  {
    Filter(all, a => IsUpcoming(a, now))
  }

  function PastAppointments(all: seq<Appointment>, now: Instant): (r: seq<Appointment>)
    ensures forall a :: a in r <==> a in all && (a.date < now || !Occupies(a.status))
  {
    Filter(all, a => IsPast(a, now))
  }

  /** Over the five statuses, every appointment is in exactly one of the two lists. */
  lemma UpcomingXorPast(a: Appointment, now: Instant)
    ensures IsUpcoming(a, now) <==> !IsPast(a, now)
  {
  }

  /** The two lists split the appointments: together they hold each appointment exactly as
      often as the full list does. */
  lemma UpcomingPastPartition(all: seq<Appointment>, now: Instant)
    ensures multiset(UpcomingAppointments(all, now)) + multiset(PastAppointments(all, now)) == multiset(all)
  {
    FilterPartition(all, a => IsUpcoming(a, now), a => IsPast(a, now));
  }

  /** Both lists keep the order of the fetched list. */
  lemma ListsKeepOrder(all: seq<Appointment>, now: Instant)
    ensures IsSubsequence(UpcomingAppointments(all, now), all)
    ensures IsSubsequence(PastAppointments(all, now), all)
  {
    FilterIsSubsequence(all, a => IsUpcoming(a, now));
    FilterIsSubsequence(all, a => IsPast(a, now));
  }

  /** The cancel button is shown for pending and confirmed appointments. */
  predicate CancelOffered(a: Appointment) {
    a.status == Pending || a.status == Confirmed
  }

  lemma UpcomingOffersCancel(all: seq<Appointment>, now: Instant, a: Appointment)
    requires a in UpcomingAppointments(all, now)
    ensures CancelOffered(a)
  {
  }

  /** Confirming the cancel dialog sends one status change: the selected appointment to
      CANCELLED; with nothing selected nothing is sent. */
  function CancelRequest(selected: Option<Appointment>): (r: Option<StatusUpdate>)
    ensures r.Some? <==> selected.Some?
    ensures r.Some? ==> r.value.appointmentId == selected.value.id && r.value.status == Cancelled
  {
    if selected.None? then None else Some(StatusUpdate(selected.value.id, Cancelled))
  }
}

=== FILE: schedule.dfy ===
/** Calendar rules and slot generation (src/lib/appointments.ts
    `SCHEDULE_CONFIG`, `BOOKING_RULES`, `getServiceCategory`, `generateTimeSlots`). */
module Schedule {
  import opened Wrappers
  import opened Domain
  import opened TimeText
  import opened Seqs

  /** Opening hours of one day type, as "HH:MM" strings. */
  datatype Window = Window(start: string, end: string)

  /** Slot length in minutes and the opening hours on weekdays and on Saturday.
      Sunday has no window: the availability computation returns before reading it. */
  datatype CategoryConfig = CategoryConfig(duration: nat, weekdays: Window, saturday: Window)

  function ScheduleConfig(c: ServiceCategory): CategoryConfig {
    match c
    case Consulta => CategoryConfig(30, Window("08:00", "12:30"), Window("09:00", "14:00"))
    case Procedimiento => CategoryConfig(60, Window("10:00", "12:00"), Window("10:00", "14:00"))
  }

  /** Booking rules. `MinTimeBetweenSamePatient` is declared by the source but never applied. */
  const MaxAdvanceDays: nat := 7
  const MinTimeBetweenSamePatient: nat := 60
  const MinAdvanceHours: nat := 2

  /** `getServiceCategory`: the two consultation types are consultations, every other type a procedure. */
  function GetServiceCategory(st: ServiceType): (c: ServiceCategory)
    ensures c == Consulta <==> st == ConsultaGastro || st == ConsultaNutricion
    ensures c == Procedimiento <==> st == Endoscopia || st == Colonoscopia
  {
    match st
    case ConsultaGastro => Consulta
    case ConsultaNutricion => Consulta
    case _ => Procedimiento
  }

  lemma MulLe(a: int, b: int, d: int)
    requires a <= b && d >= 0
    ensures a * d <= b * d
  {
  }

  /** Integer division is pinned down by the bracketing multiples. */
  lemma DivUnique(x: int, d: int, q: int)
    requires d > 0 && q * d <= x < (q + 1) * d
    ensures x / d == q
  {
    var q' := x / d;
    if q' < q {
      MulLe(q' + 1, q, d);
    } else if q' > q {
      MulLe(q + 1, q', d);
    }
  }

  /** The start minutes of the slots of `[start, end)` with step `d`: from `start` on, in
      steps of exactly `d`, every slot ending by `end`, and no room left for one more. */
  function SlotMinutes(start: nat, end: nat, d: nat): (r: seq<nat>)
    requires d > 0
    ensures |r| > 0 ==> r[0] == start
    ensures forall i :: 0 <= i < |r| - 1 ==> r[i + 1] == r[i] + d
    ensures forall i :: 0 <= i < |r| ==> r[i] + d <= end
    ensures if |r| == 0 then end < start + d else end < r[|r| - 1] + 2 * d
    decreases end - start
  {
    if start + d <= end then [start] + SlotMinutes(start + d, end, d) else []
  }

  /** Slot `i` starts `i` steps after `start`. */
  lemma {:induction false} SlotMinutesClosedForm(start: nat, end: nat, d: nat, i: nat)
    requires d > 0 && i < |SlotMinutes(start, end, d)|
    ensures SlotMinutes(start, end, d)[i] == start + i * d
  {
    if i > 0 {
      SlotMinutesClosedForm(start, end, d, i - 1);
      assert start + (i - 1) * d + d == start + i * d;
    }
  }

  /** The number of slots is the number of whole steps that fit in the window. */
  lemma SlotCount(start: nat, end: nat, d: nat)
    requires d > 0
    ensures |SlotMinutes(start, end, d)| == if start + d <= end then (end - start) / d else 0
  {
    var r := SlotMinutes(start, end, d);
    if start + d <= end {
      var n := |r|;
      SlotMinutesClosedForm(start, end, d, n - 1);
      assert start + (n - 1) * d + d == start + n * d;
      assert start + (n - 1) * d + 2 * d == start + (n + 1) * d;
      DivUnique(end - start, d, n);
    }
  }

  /** Each minute count of `ms` rendered as "HH:MM". */
  function FormatAll(ms: seq<nat>): (r: seq<string>)
    ensures |r| == |ms| && forall i :: 0 <= i < |ms| ==> r[i] == FormatTime(ms[i])
  {
    seq(|ms|, i requires 0 <= i < |ms| => FormatTime(ms[i]))
  }

  /** `generateTimeSlots`: the "HH:MM" slots of a window. An unparsable bound behaves as
      NaN does in the source's loop test: no slot at all. */
  function GenerateTimeSlots(startTime: string, endTime: string, duration: nat): (r: seq<string>)
    requires duration > 0
    ensures ParseTime(startTime).None? || ParseTime(endTime).None? ==> r == []
    ensures ParseTime(startTime).Some? && ParseTime(endTime).Some? ==>
      (r == [] <==> ParseTime(endTime).value < ParseTime(startTime).value + duration)
    ensures ParseTime(startTime).Some? && ParseTime(endTime).Some? && r != [] ==>
      r[0] == FormatTime(ParseTime(startTime).value)
  {
    match (ParseTime(startTime), ParseTime(endTime))
    case (Some(s), Some(e)) => FormatAll(SlotMinutes(s, e, duration))
    case _ => []
  }

  /** A window whose bounds read as `s` and `e` minutes has as many slots as whole
      steps of `duration` fit in it (none if the window is shorter than one step). */
  lemma GeneratedSlotCount(startTime: string, endTime: string, duration: nat, s: nat, e: nat)
    requires duration > 0
    requires ParseTime(startTime) == Some(s) && ParseTime(endTime) == Some(e)
    ensures |GenerateTimeSlots(startTime, endTime, duration)| == if s + duration <= e then (e - s) / duration else 0
  {
    SlotCount(s, e, duration);
  }

  /** A bound that does not read as a time gives no slot (the source's loop test is false on NaN). */
  lemma GeneratedSlotsMalformed(startTime: string, endTime: string, duration: nat)
    requires duration > 0
    requires ParseTime(startTime).None? || ParseTime(endTime).None?
    ensures GenerateTimeSlots(startTime, endTime, duration) == []
  {
  }

  /** Read back, the generated slots are the minute counts of `SlotMinutes`. */
  lemma GeneratedSlotAt(startTime: string, endTime: string, duration: nat, s: nat, e: nat, i: nat)
    requires duration > 0
    requires ParseTime(startTime) == Some(s) && ParseTime(endTime) == Some(e)
    requires i < |GenerateTimeSlots(startTime, endTime, duration)|
    ensures i < |SlotMinutes(s, e, duration)|
    ensures GenerateTimeSlots(startTime, endTime, duration)[i] == FormatTime(SlotMinutes(s, e, duration)[i])
    ensures ParseTime(GenerateTimeSlots(startTime, endTime, duration)[i]) == Some(SlotMinutes(s, e, duration)[i])
  {
    var ms := SlotMinutes(s, e, duration);
    assert GenerateTimeSlots(startTime, endTime, duration) == FormatAll(ms);
    ParseFormatRoundTrip(ms[i]);
  }

  /** The slots start at the window's start, follow each other at exactly `duration`
      minutes, and each one ends within the window. */
  lemma GeneratedSlotsSteps(startTime: string, endTime: string, duration: nat, s: nat, e: nat)
    requires duration > 0
    requires ParseTime(startTime) == Some(s) && ParseTime(endTime) == Some(e)
    ensures |GenerateTimeSlots(startTime, endTime, duration)| > 0 ==>
      GenerateTimeSlots(startTime, endTime, duration)[0] == FormatTime(s)
    ensures forall i :: 0 <= i < |GenerateTimeSlots(startTime, endTime, duration)| ==>
      ParseTime(GenerateTimeSlots(startTime, endTime, duration)[i]).Some? &&
      ParseTime(GenerateTimeSlots(startTime, endTime, duration)[i]).value + duration <= e
    ensures forall i :: 0 <= i < |GenerateTimeSlots(startTime, endTime, duration)| - 1 ==>
      ParseTime(GenerateTimeSlots(startTime, endTime, duration)[i + 1]).value ==
      ParseTime(GenerateTimeSlots(startTime, endTime, duration)[i]).value + duration
  {
    var r := GenerateTimeSlots(startTime, endTime, duration);
    forall i | 0 <= i < |r|
      ensures ParseTime(r[i]).Some? && ParseTime(r[i]).value + duration <= e
    {
      GeneratedSlotAt(startTime, endTime, duration, s, e, i);
    }
    forall i | 0 <= i < |r| - 1
      ensures ParseTime(r[i + 1]).value == ParseTime(r[i]).value + duration
    {
      GeneratedSlotAt(startTime, endTime, duration, s, e, i);
      GeneratedSlotAt(startTime, endTime, duration, s, e, i + 1);
    }
  }

  /** Strictly ascending minute counts. */
  lemma {:induction false} SlotMinutesAscending(start: nat, end: nat, d: nat, i: nat, j: nat)
    requires d > 0 && i < j < |SlotMinutes(start, end, d)|
    ensures SlotMinutes(start, end, d)[i] < SlotMinutes(start, end, d)[j]
    decreases j - i
  {
    if j > i + 1 {
      SlotMinutesAscending(start, end, d, i, j - 1);
    }
  }

  /** No slot is generated twice. */
  lemma GeneratedSlotsDistinct(startTime: string, endTime: string, duration: nat)
    requires duration > 0
    ensures NoDuplicates(GenerateTimeSlots(startTime, endTime, duration))
  {
    var r := GenerateTimeSlots(startTime, endTime, duration);
    if ParseTime(startTime).Some? && ParseTime(endTime).Some? {
      var s := ParseTime(startTime).value;
      var e := ParseTime(endTime).value;
      forall i, j | 0 <= i < j < |r| ensures r[i] != r[j] {
        GeneratedSlotAt(startTime, endTime, duration, s, e, i);
        GeneratedSlotAt(startTime, endTime, duration, s, e, j);
        SlotMinutesAscending(s, e, duration, i, j);
      }
    }
  }

  /** The opening hours that apply on a day with `getDay() == dayOfWeek` (Monday to Saturday). */
  function WindowFor(c: ServiceCategory, dayOfWeek: int): (w: Window)
    requires 1 <= dayOfWeek <= 6
    ensures dayOfWeek == 6 ==> w == ScheduleConfig(c).saturday
    ensures dayOfWeek != 6 ==> w == ScheduleConfig(c).weekdays
  {
    if dayOfWeek == 6 then ScheduleConfig(c).saturday else ScheduleConfig(c).weekdays
  }

  /** Every slot the clinic offers for a service on a day, before any exclusion. */
  function CandidateSlots(st: ServiceType, dayOfWeek: int): seq<string>
    requires 1 <= dayOfWeek <= 6
  {
    var c := GetServiceCategory(st);
    var w := WindowFor(c, dayOfWeek);
    GenerateTimeSlots(w.start, w.end, ScheduleConfig(c).duration)
  }

  lemma ParsedAt(text: string, minutes: nat)
    requires FormatTime(minutes) == text
    ensures ParseTime(text) == Some(minutes)
  {
    ParseFormatRoundTrip(minutes);
  }

  lemma Parsed0800() ensures ParseTime("08:00") == Some(480) { ParsedAt("08:00", 480); }
  lemma Parsed1230() ensures ParseTime("12:30") == Some(750) { ParsedAt("12:30", 750); }
  lemma Parsed1000() ensures ParseTime("10:00") == Some(600) { ParsedAt("10:00", 600); }
  lemma Parsed1200() ensures ParseTime("12:00") == Some(720) { ParsedAt("12:00", 720); }

  lemma GenerateParsed(startTime: string, endTime: string, duration: nat, s: nat, e: nat)
    requires duration > 0
    requires ParseTime(startTime) == Some(s) && ParseTime(endTime) == Some(e)
    ensures GenerateTimeSlots(startTime, endTime, duration) == FormatAll(SlotMinutes(s, e, duration))
  {
  }

  lemma ConsultaWeekdayWindow()
    ensures CandidateSlots(ConsultaGastro, 1) == GenerateTimeSlots("08:00", "12:30", 30)
  {
  }

  lemma ConsultaWeekdayMinutes()
    ensures SlotMinutes(480, 750, 30) == [480, 510, 540, 570, 600, 630, 660, 690, 720]
  {
    assert SlotMinutes(660, 750, 30) == [660, 690, 720];
    assert SlotMinutes(570, 750, 30) == [570, 600, 630] + SlotMinutes(660, 750, 30);
    assert SlotMinutes(480, 750, 30) == [480, 510, 540] + SlotMinutes(570, 750, 30);
  }

  /** The rendering of each weekday slot minute, one per lemma so each literal is evaluated once. */
  lemma Renders0800(m: nat) requires m == 480 ensures FormatTime(m) == "08:00" { }
  lemma Renders0830(m: nat) requires m == 510 ensures FormatTime(m) == "08:30" { }
  lemma Renders0900(m: nat) requires m == 540 ensures FormatTime(m) == "09:00" { }
  lemma Renders0930(m: nat) requires m == 570 ensures FormatTime(m) == "09:30" { }
  lemma Renders1000(m: nat) requires m == 600 ensures FormatTime(m) == "10:00" { }
  lemma Renders1030(m: nat) requires m == 630 ensures FormatTime(m) == "10:30" { }
  lemma Renders1100(m: nat) requires m == 660 ensures FormatTime(m) == "11:00" { }
  lemma Renders1130(m: nat) requires m == 690 ensures FormatTime(m) == "11:30" { }
  lemma Renders1200(m: nat) requires m == 720 ensures FormatTime(m) == "12:00" { }

  lemma ConsultaWeekdayRendering(ms: seq<nat>)
    requires ms == [480, 510, 540, 570, 600, 630, 660, 690, 720]
    ensures FormatAll(ms) ==
      ["08:00", "08:30", "09:00", "09:30", "10:00", "10:30", "11:00", "11:30", "12:00"]
  {
    Renders0800(ms[0]);
    Renders0830(ms[1]);
    Renders0900(ms[2]);
    Renders0930(ms[3]);
    Renders1000(ms[4]);
    Renders1030(ms[5]);
    Renders1100(ms[6]);
    Renders1130(ms[7]);
    Renders1200(ms[8]);
  }

  /** Services of one category share their Monday-to-Friday slots. */
  lemma SameCategorySameWeekdaySlots(st: ServiceType, dayOfWeek: int, other: ServiceType, otherDay: int)
    requires GetServiceCategory(st) == GetServiceCategory(other)
    requires 1 <= dayOfWeek <= 5 && 1 <= otherDay <= 5
    ensures CandidateSlots(st, dayOfWeek) == CandidateSlots(other, otherDay)
  {
  }

  lemma ConsultaGastroMondaySlots()
    ensures CandidateSlots(ConsultaGastro, 1) ==
      ["08:00", "08:30", "09:00", "09:30", "10:00", "10:30", "11:00", "11:30", "12:00"]
  {
    Parsed0800();
    Parsed1230();
    ConsultaWeekdayWindow();
    GenerateParsed("08:00", "12:30", 30, 480, 750);
    ConsultaWeekdayMinutes();
    ConsultaWeekdayRendering(SlotMinutes(480, 750, 30));
  }

  /** Either consultation, Monday to Friday: the window 08:00-12:30 with 30-minute slots
      gives exactly the nine slots 08:00, 08:30, ..., 12:00. */
  lemma ConsultaWeekdaySlots(st: ServiceType, dayOfWeek: int)
    requires GetServiceCategory(st) == Consulta && 1 <= dayOfWeek <= 5
    ensures CandidateSlots(st, dayOfWeek) ==
      ["08:00", "08:30", "09:00", "09:30", "10:00", "10:30", "11:00", "11:30", "12:00"]
  {
    ConsultaGastroMondaySlots();
    SameCategorySameWeekdaySlots(st, dayOfWeek, ConsultaGastro, 1);
  }

  lemma ProcedimientoWeekdayWindow()
    ensures CandidateSlots(Endoscopia, 3) == GenerateTimeSlots("10:00", "12:00", 60)
  {
  }

  lemma ProcedimientoWeekdayMinutes()
    ensures SlotMinutes(600, 720, 60) == [600, 660]
  {
  }

  lemma ProcedimientoWeekdayRendering(ms: seq<nat>)
    requires ms == [600, 660]
    ensures FormatAll(ms) == ["10:00", "11:00"]
  {
    Renders1000(ms[0]);
    Renders1100(ms[1]);
  }

  lemma EndoscopiaWednesdaySlots()
    ensures CandidateSlots(Endoscopia, 3) == ["10:00", "11:00"]
  {
    Parsed1000();
    Parsed1200();
    ProcedimientoWeekdayWindow();
    GenerateParsed("10:00", "12:00", 60, 600, 720);
    ProcedimientoWeekdayMinutes();
    ProcedimientoWeekdayRendering(SlotMinutes(600, 720, 60));
  }

  /** Either procedure, Monday to Friday: the window 10:00-12:00 with 60-minute slots gives
      exactly 10:00 and 11:00. */
  lemma ProcedimientoWeekdaySlots(st: ServiceType, dayOfWeek: int)
    requires GetServiceCategory(st) == Procedimiento && 1 <= dayOfWeek <= 5
    ensures CandidateSlots(st, dayOfWeek) == ["10:00", "11:00"]
  {
    EndoscopiaWednesdaySlots();
    SameCategorySameWeekdaySlots(st, dayOfWeek, Endoscopia, 3);
  }
}

=== FILE: seqs.dfy ===
/** Generic sequence operations shared by the model: an order-preserving
    filter (the source's `Array.prototype.filter`), the subsequence relation,
    duplicate freedom, and a sort by an integer key (the datastore's
    `orderBy: { date: "asc" }`). */
module Seqs {

  /** Keeps, in order, the elements of `s` that satisfy `p`. */
  function Filter<T>(s: seq<T>, p: T -> bool): (r: seq<T>)
    ensures |r| <= |s|
    ensures forall i :: 0 <= i < |r| ==> r[i] in s && p(r[i])
    ensures forall i :: 0 <= i < |s| && p(s[i]) ==> s[i] in r
    decreases |s|
  {
    if s == [] then []
    else if p(s[0]) then [s[0]] + Filter(s[1..], p)
    else Filter(s[1..], p)
  }

  /** Membership in a filtered sequence, for one value. */
  lemma FilterMembership<T>(s: seq<T>, p: T -> bool, x: T)
    ensures x in Filter(s, p) <==> x in s && p(x)
  {
    if x in s && p(x) {
      var i :| 0 <= i < |s| && s[i] == x;
    }
  }

  /** `a` is obtained from `b` by deleting elements, keeping the order of the rest. */
  ghost predicate IsSubsequence<T>(a: seq<T>, b: seq<T>)
    decreases |b|
  {
    if a == [] then true
    else if b == [] then false
    else (a[0] == b[0] && IsSubsequence(a[1..], b[1..])) || IsSubsequence(a, b[1..])
  }

  /** No value occurs twice. */
  ghost predicate NoDuplicates<T>(s: seq<T>) {
    forall i, j :: 0 <= i < j < |s| ==> s[i] != s[j]
  }

  lemma {:induction false} FilterIsSubsequence<T>(s: seq<T>, p: T -> bool)
    ensures IsSubsequence(Filter(s, p), s)
    decreases |s|
  {
    if s != [] {
      FilterIsSubsequence(s[1..], p);
      var r := Filter(s, p);
      if p(s[0]) {
        assert r[0] == s[0] && r[1..] == Filter(s[1..], p);
      } else if r != [] {
        assert r == Filter(s[1..], p);
      }
    }
  }

  lemma {:induction false} FilterKeepsNoDuplicates<T>(s: seq<T>, p: T -> bool)
    requires NoDuplicates(s)
    ensures NoDuplicates(Filter(s, p))
    decreases |s|
  {
    if s != [] {
      assert NoDuplicates(s[1..]) by {
        forall i, j | 0 <= i < j < |s[1..]| ensures s[1..][i] != s[1..][j] {
          assert s[1..][i] == s[i + 1] && s[1..][j] == s[j + 1];
        }
      }
      FilterKeepsNoDuplicates(s[1..], p);
      if p(s[0]) {
        var rest := Filter(s[1..], p);
        assert s[0] !in s[1..] by {
          forall k | 0 <= k < |s[1..]| ensures s[1..][k] != s[0] {
            assert s[1..][k] == s[k + 1];
          }
        }
        assert s[0] !in rest;
        var r := [s[0]] + rest;
        forall i, j | 0 <= i < j < |r| ensures r[i] != r[j] {
          if i == 0 {
            assert r[j] == rest[j - 1];
            assert r[j] in rest;
          } else {
            assert r[i] == rest[i - 1] && r[j] == rest[j - 1];
          }
        }
      }
    }
  }

  /** Filtering by `p` and by its negation splits `s` into two parts that
      together hold every element of `s` exactly as often as `s` does. */
  lemma {:induction false} FilterPartition<T>(s: seq<T>, p: T -> bool, q: T -> bool)
    requires forall i :: 0 <= i < |s| ==> q(s[i]) == !p(s[i])
    ensures multiset(Filter(s, p)) + multiset(Filter(s, q)) == multiset(s)
    decreases |s|
  {
    if s != [] {
      FilterPartition(s[1..], p, q);
      assert s == [s[0]] + s[1..];
    }
  }

  /** Filtering commutes with appending. */
  lemma {:induction false} FilterAppend<T>(a: seq<T>, b: seq<T>, p: T -> bool)
    ensures Filter(a + b, p) == Filter(a, p) + Filter(b, p)
    decreases |a|
  {
    if a == [] {
      assert a + b == b;
    } else {
      assert (a + b)[1..] == a[1..] + b;
      FilterAppend(a[1..], b, p);
    }
  }

  /** Two predicates that agree on every element of `s` select the same elements. */
  lemma {:induction false} FilterCongruence<T>(s: seq<T>, p: T -> bool, q: T -> bool)
    requires forall i :: 0 <= i < |s| ==> p(s[i]) == q(s[i])
    ensures Filter(s, p) == Filter(s, q)
    decreases |s|
  {
    if s != [] {
      assert forall i :: 0 <= i < |s[1..]| ==> s[1..][i] == s[i + 1];
      FilterCongruence(s[1..], p, q);
    }
  }

  /** A predicate every element satisfies keeps the whole sequence. */
  lemma {:induction false} FilterKeepsAll<T>(s: seq<T>, p: T -> bool)
    requires forall i :: 0 <= i < |s| ==> p(s[i])
    ensures Filter(s, p) == s
    decreases |s|
  {
    if s != [] {
      FilterKeepsAll(s[1..], p);
    }
  }

  lemma {:induction false} FilterRejectsAll<T>(s: seq<T>, p: T -> bool)
    requires forall i :: 0 <= i < |s| ==> !p(s[i])
    ensures Filter(s, p) == []
    decreases |s|
  {
    if s != [] {
      FilterRejectsAll(s[1..], p);
    }
  }

  /** `s` is in non-decreasing order of `key`. */
  ghost predicate SortedBy<T>(s: seq<T>, key: T -> int) {
    forall i, j :: 0 <= i < j < |s| ==> key(s[i]) <= key(s[j])
  }

  /** Inserts `x` into `s`, which is sorted by `key`, before the first element whose key is
      at least that of `x` (so ahead of any equal keys). */
  function InsertBy<T>(x: T, s: seq<T>, key: T -> int): (r: seq<T>)
    requires SortedBy(s, key)
    ensures SortedBy(r, key)
    ensures multiset(r) == multiset(s) + multiset{x}
    decreases |s|
  {
    if s == [] then [x]
    else if key(x) <= key(s[0]) then [x] + s
    else
      var rest := InsertBy(x, s[1..], key);
      assert s == [s[0]] + s[1..];
      assert forall k :: 0 <= k < |rest| ==> key(s[0]) <= key(rest[k]) by {
        forall k | 0 <= k < |rest| ensures key(s[0]) <= key(rest[k]) {
          assert rest[k] in multiset(s[1..]) + multiset{x};
          if rest[k] in multiset(s[1..]) {
            var m :| 0 <= m < |s[1..]| && s[1..][m] == rest[k];
            assert s[1..][m] == s[m + 1];
          }
        }
      }
      [s[0]] + rest
  }

  /** The elements of `s` in non-decreasing order of `key` (insertion sort). */
  function SortBy<T>(s: seq<T>, key: T -> int): (r: seq<T>)
    ensures SortedBy(r, key)
    ensures multiset(r) == multiset(s)
    decreases |s|
  {
    if s == [] then []
    else
      assert s == [s[0]] + s[1..];
      InsertBy(s[0], SortBy(s[1..], key), key)
  }
}

=== FILE: text.dfy ===
/** The string operations the source relies on, over `seq<char>`: decimal
    rendering with `padStart(2, "0")`, `Number(...)` on digit strings,
    ASCII `toLowerCase()`, `includes(...)` and `startsWith(...)`. */
module Text {

  predicate IsDigit(c: char) {
    '0' <= c <= '9'
  }

  /** Every character of `s` is a decimal digit (the empty string included). */
  predicate AllDigits(s: string) {
    forall i :: 0 <= i < |s| ==> IsDigit(s[i])
  }

  function DigitChar(d: nat): (c: char)
    requires d < 10
    ensures IsDigit(c)
  {
    ['0', '1', '2', '3', '4', '5', '6', '7', '8', '9'][d]
  }

  function DigitValue(c: char): (d: nat)
    requires IsDigit(c)
    ensures d < 10 && DigitChar(d) == c
  {
    (c as int - '0' as int) as nat
  }

  /** The value of a digit string; the empty string is 0, as JavaScript's `Number("")`. */
  function DecimalValue(s: string): nat
    requires AllDigits(s)
    decreases |s|
  {
    if s == [] then 0 else DecimalValue(s[..|s| - 1]) * 10 + DigitValue(s[|s| - 1])
  }

  /** The decimal rendering of `n` without leading zeros (`n.toString()`). */
  function NatToString(n: nat): (s: string)
    ensures AllDigits(s) && 1 <= |s|
    ensures n < 10 ==> |s| == 1
    ensures 10 <= n < 100 ==> |s| == 2
    decreases n
  {
    if n < 10 then [DigitChar(n)] else NatToString(n / 10) + [DigitChar(n % 10)]
  }

  /** `padStart(2, "0")`: a one-character string gets a leading zero. */
  function PadStart2(s: string): (r: string)
    ensures |r| == if |s| < 2 then 2 else |s|
    ensures |s| == 1 ==> r[1..] == s && r[0] == '0'
    ensures |s| >= 2 ==> r == s
  {
    if |s| == 0 then "00" else if |s| == 1 then "0" + s else s
  }

  lemma {:induction false} NatToStringValue(n: nat)
    ensures DecimalValue(NatToString(n)) == n
    decreases n
  {
    if n >= 10 {
      NatToStringValue(n / 10);
      var s := NatToString(n);
      assert s[..|s| - 1] == NatToString(n / 10);
    }
  }

  lemma {:induction false} LeadingZeroValue(s: string)
    requires AllDigits(s)
    ensures AllDigits("0" + s) && DecimalValue("0" + s) == DecimalValue(s)
    decreases |s|
  {
    var z := "0" + s;
    if s != [] {
      assert z[..|z| - 1] == "0" + s[..|s| - 1];
      LeadingZeroValue(s[..|s| - 1]);
    }
  }

  /** A zero-padded rendering reads back as the number it renders. */
  lemma PaddedValue(n: nat)
    ensures AllDigits(PadStart2(NatToString(n)))
    ensures DecimalValue(PadStart2(NatToString(n))) == n
  {
    NatToStringValue(n);
    var s := NatToString(n);
    if |s| == 1 {
      LeadingZeroValue(s);
    }
  }

  /** ASCII `toLowerCase()` of one character. */
  function LowerChar(c: char): char {
    if 'A' <= c <= 'Z' then (c as int + 32) as char else c
  }

  /** ASCII `toLowerCase()`. */
  function Lower(s: string): (r: string)
    ensures |r| == |s|
    ensures forall i :: 0 <= i < |s| ==> r[i] == LowerChar(s[i])
  {
    seq(|s|, i requires 0 <= i < |s| => LowerChar(s[i]))
  }

  /** Lower-casing twice is lower-casing once. */
  lemma LowerIdempotent(s: string)
    ensures Lower(Lower(s)) == Lower(s)
  {
  }

  /** `hay.includes(needle)`: `needle` occurs at some position of `hay`. */
  predicate Contains(hay: string, needle: string)
    decreases |hay|
  {
    needle <= hay || (hay != [] && Contains(hay[1..], needle))
  }

  /** `needle` occurs in `hay` starting at offset `k`. */
  predicate OccursAt(hay: string, needle: string, k: int) {
    0 <= k && k + |needle| <= |hay| && hay[k..k + |needle|] == needle
  }

  /** `Contains` is the usual "occurs at some offset" relation. */
  lemma {:induction false} ContainsAtOffset(hay: string, needle: string)
    ensures Contains(hay, needle) <==> exists k :: OccursAt(hay, needle, k)
    decreases |hay|
  {
    if needle <= hay {
      assert OccursAt(hay, needle, 0);
    } else if hay != [] {
      ContainsAtOffset(hay[1..], needle);
      if exists k :: OccursAt(hay, needle, k) {
        var k :| OccursAt(hay, needle, k);
        assert OccursAt(hay[1..], needle, k - 1);
      }
      if Contains(hay[1..], needle) {
        var k :| OccursAt(hay[1..], needle, k);
        assert OccursAt(hay, needle, k + 1);
      }
    }
  }
}

=== FILE: time_text.dfy ===
/** "HH:MM" clock strings (src/lib/appointments.ts `parseTime`, `formatTime`,
    `formatDateToTime`, and the `split(":").map(Number)` idiom). */
module TimeText {
  import opened Wrappers
  import opened Text
  import opened Clock

  /** Position of the first `c` in `s`, or `|s|` when there is none. */
  function IndexOf(s: string, c: char): (k: nat)
    ensures k <= |s|
    ensures k < |s| ==> s[k] == c
    ensures forall i :: 0 <= i < k ==> s[i] != c
    decreases |s|
  {
    if s == [] then 0 else if s[0] == c then 0 else 1 + IndexOf(s[1..], c)
  }

  /** `const [hours, minutes] = s.split(":").map(Number)`: the first two colon-separated
      fields as numbers. `None` stands for a NaN field: a field with a non-digit, or a
      missing minutes field. An empty field is 0, as `Number("")`. */
  function ParseClock(s: string): Option<(nat, nat)> {
    var k := IndexOf(s, ':');
    if k == |s| then None
    else
      var hours := s[..k];
      var rest := s[k + 1..];
      var minutes := rest[..IndexOf(rest, ':')];
      if AllDigits(hours) && AllDigits(minutes) then Some((DecimalValue(hours), DecimalValue(minutes)))
      else None
  }

  /** `parseTime`: minutes since midnight of an "HH:MM" string. */
  function ParseTime(s: string): (r: Option<nat>)
    ensures r.Some? <==> ParseClock(s).Some?
    ensures r.Some? && ParseClock(s).value.1 < 60 ==>
              r.value / 60 == ParseClock(s).value.0 && r.value % 60 == ParseClock(s).value.1
  {
    match ParseClock(s)
    case Some((h, m)) => Some(h * 60 + m)
    case None => None
  }

  /** The two-digit (or wider) zero-padded rendering used for hours and minutes. */
  function Pad2(n: nat): string {
    PadStart2(NatToString(n))
  }

  /** `formatTime`: minutes since midnight as "HH:MM". */
  function FormatTime(minutes: nat): (r: string)
    ensures |r| >= 5 && r[|r| - 3] == ':' && (minutes < 6000 ==> |r| == 5)
  {
    Pad2Shape(minutes / 60);
    Pad2Shape(minutes % 60);
    Pad2(minutes / 60) + ":" + Pad2(minutes % 60)
  }

  /** `formatDateToTime`: the local "HH:MM" of an instant (its hours and minutes
      are those of its minute of the day). */
  function FormatDateToTime(t: Instant): (r: string)
    ensures |r| == 5 && ParseTime(r) == Some(MinuteOfDay(t))
  {
    ParseFormatRoundTrip(MinuteOfDay(t));
    FormatTime(MinuteOfDay(t))
  }

  lemma Pad2Shape(n: nat)
    ensures AllDigits(Pad2(n)) && |Pad2(n)| >= 2
    ensures n < 100 ==> |Pad2(n)| == 2
    ensures DecimalValue(Pad2(n)) == n
  {
    PaddedValue(n);
  }

  /** `formatTime` is read back by the `split(":").map(Number)` idiom as its hours and minutes. */
  lemma {:induction false} ParseClockFormatTime(minutes: nat)
    ensures ParseClock(FormatTime(minutes)) == Some((minutes / 60, minutes % 60))
  {
    var hh := Pad2(minutes / 60);
    var mm := Pad2(minutes % 60);
    Pad2Shape(minutes / 60);
    Pad2Shape(minutes % 60);
    var s := FormatTime(minutes);
    assert s == hh + ":" + mm;
    assert forall i :: 0 <= i < |hh| ==> s[i] == hh[i];
    assert s[|hh|] == ':';
    assert IndexOf(s, ':') == |hh|;
    assert s[..|hh|] == hh;
    assert s[|hh| + 1..] == mm;
    assert IndexOf(mm, ':') == |mm|;
    assert mm[..|mm|] == mm;
  }

  /** Round trip: parsing a formatted minute count gives it back, for every count. */
  lemma ParseFormatRoundTrip(minutes: nat)
    ensures ParseTime(FormatTime(minutes)) == Some(minutes)
  {
    ParseClockFormatTime(minutes);
  }

  /** `formatTime` never maps two minute counts to the same string. */
  lemma FormatTimeInjective(a: nat, b: nat)
    ensures FormatTime(a) == FormatTime(b) <==> a == b
  {
    ParseFormatRoundTrip(a);
    ParseFormatRoundTrip(b);
  }

  /** Every time of day 00:00 .. 99:59 renders as exactly five characters "HH:MM". */
  lemma FormatTimeShape(minutes: nat)
    requires minutes < 6000
    ensures |FormatTime(minutes)| == 5 && FormatTime(minutes)[2] == ':'
    ensures AllDigits(FormatTime(minutes)[..2]) && AllDigits(FormatTime(minutes)[3..])
  {
    Pad2Shape(minutes / 60);
    Pad2Shape(minutes % 60);
    var s := FormatTime(minutes);
    assert s[..2] == Pad2(minutes / 60);
    assert s[3..] == Pad2(minutes % 60);
  }
}

=== FILE: wrappers.dfy ===
/** The optional-value datatype used throughout the model for the source's
    `null` / `undefined` values and for computations that can yield no value. */
module Wrappers {

  datatype Option<+T> = None | Some(value: T) {

    /** Returns the encapsulated value, or `default` when there is none. */
    function GetOr(default: T): T {
      match this
      case Some(v) => v
      case None => default
    }
  }
}
